=== FILE: README.md ===
# Auto-repair back office: a Dafny model of its core

The system is a Flask/SQLite back office for a car-repair shop. Its records are:
- clients, their vehicles, and the repair jobs (`reparaciones`) on those vehicles;
- job lines (`reparacion_items`) and job images;
- one quote/invoice per job (`facturas`);
- expenses (`gastos`) and concept suggestions (`item_conceptos`).

This project models the pure logic inside `app.py`'s route handlers. It works over an immutable in-memory store that holds one map from row id to record per table.

- **Text and phone helpers** (`text.dfy`, `format.dfy`, `phone.dfy`, `uploads.dfy`):
  - `normalizar_telefono`, `formatear_mayus`, `formatear_titulo`, `allowed_file`;
  - the WhatsApp number the invoice view derives from the client's phone.
- **Route guards** (`auth.dfy`): `login_required` and `admin_required` as functions of an explicit session record, and the session that login and logout leave.
- **Quote/invoice engine** (`records.dfy`, `pricing.dfy`, `invoice.dfy`):
  - the line arithmetic `cantidad * precio * (1 - descuento / 100)` and the job total;
  - the invoice view, which lazily creates a draft quote on the first visit and recomputes the cached total on every later one;
  - the detail view's total, `factura_descuento` and `factura_confirmar`.
- **Store mutations** (`mutations.dfy`):
  - `reparacion_eliminar` and `cliente_eliminar`, and what they leave in place;
  - the form post of `item_nuevo`, with the insert-or-ignore of its concept suggestion.
- **Dashboard** (`ledger.dfy`, `dashboard.dfy`):
  - job counts by state;
  - income and expenses over the inclusive seven-day window ending today;
  - the day-by-day series for the chart.

How the model represents things:
- Ids come from one counter, `nextId`. A scan over the ids below the counter stands for the row order a `SELECT` without `ORDER BY` returns.
- Dates are day numbers, and "today" is a parameter.
- Amounts are exact reals, and a nullable column is an `Option`.

Where the code does something other than its names, comments and docstrings suggest, the model follows the code:
- **The discount route only stores the discount.** `factura_descuento` (app.py:1247-1264) does not touch the cached `total`. The total changes only when the invoice view is next shown. `DiscountThenView` proves what that view then holds.
- **A NULL `es_presupuesto` reads two ways.** The migration comment at app.py:225-226 treats old rows with a NULL flag as invoiced. The dashboard agrees: it counts a factura whose flag is NULL as income (app.py:381, app.py:410). The invoice page contradicts it: it reads NULL as 1 and shows the same factura as a draft quote (app.py:1204-1205). `NullFlagReadsBothWays` states both readings.
- **`normalizar_telefono` is not idempotent on input without digits.** `"abc"` becomes `""`, and `""` becomes no phone at all. `NormalizarNotIdempotentWithoutDigits` exhibits this, and `NormalizarIdempotent` proves idempotence whenever the input holds a digit.
- **The formatting helpers are not used by the routes.** The item form applies `strip().upper()` itself, which equals `formatear_mayus` on every field, the empty one included (`NewItemConcept`).
- **The invoice view can fail after it has written.** When the client row is missing, the view writes the factura first and then fails reading the phone (`ClienteEliminarOrphans`).

## Model

| member | source | states |
|---|---|---|
| Phone.NormalizarTelefono | app.py:41-51 | Absent or empty input gives None; any other input gives exactly its digit characters, in their original order |
| Phone.NormalizarIdempotent | app.py:41-51 | Normalising an already normalised phone changes nothing, when the input had at least one digit |
| Phone.NormalizarNotIdempotentWithoutDigits | app.py:41-51 | "abc" normalises to "", and normalising that again gives None: not idempotent without digits |
| PhoneExamples.NormalizarExample | app.py:41-51 | "+54 9 11-2345-6789" normalises to "5491123456789" |
| Text.Digits | app.py:45 | The result holds only digits and is no longer than the input |
| Text.DigitsCount | app.py:45 | Every digit of the input is kept, exactly as often as it occurs there |
| Text.DigitsAppend | app.py:45 | Removing non-digits works part by part: the digits of a concatenation are the concatenated digits |
| Text.DigitsIdempotent | app.py:45 | Removing non-digits twice is removing them once |
| Phone.WhatsAppPhone | app.py:1213-1224 | No digits in the phone gives ""; otherwise the result is all digits, starts with "54", and is the digits with at most one leading "0" dropped, prefixed by "54" only when they do not already start with "54" |
| Phone.WhatsAppIdempotent | app.py:1213-1224 | Deriving the WhatsApp number of a WhatsApp number returns it unchanged |
| Phone.WhatsAppTrunkNumber | app.py:1218-1222 | A local number written with a trunk "0" gets "54" in place of the "0" |
| Phone.WhatsAppInternationalNumber | app.py:1218-1224 | A digit string that already starts with "54" is kept as it is |
| PhoneExamples.WhatsAppExampleTrunk | app.py:1213-1224 | "01123456789" becomes "541123456789" |
| PhoneExamples.WhatsAppExampleInternational | app.py:1213-1224 | "5491123456789" stays "5491123456789" |
| PhoneExamples.WhatsAppExampleZero | app.py:1213-1224 | A lone "0" gives the bare "54"; a missing phone gives "" |
| Format.FormatearMayus | app.py:67-74 | Absent or empty text gives ""; otherwise the result has the stripped text's length, equals it up to letter case, has no padding and no lower-case letter left |
| Format.MayusIdempotent | app.py:67-74 | Formatting an already upper-cased text changes nothing |
| Format.FormatearTitulo | app.py:57-65 | Absent or empty text gives ""; otherwise the result has no padding, its only whitespace is single spaces each followed by a word, and splitting it gives the stripped input's words, each capitalised, in order |
| Format.TituloIdempotent | app.py:57-65 | Title-casing an already title-cased text changes nothing |
| Format.CapitalizeWord | app.py:65 | Capitalising keeps a word free of whitespace, and capitalising twice is capitalising once |
| Format.TituloExample | app.py:57-65 | 'jUaN pEdRo' becomes 'Juan Pedro' |
| Text.Strip | app.py:64 | strip() returns a contiguous slice of the input with no whitespace at either end, and everything cut off before and after it is whitespace |
| Text.StripIdempotent | app.py:64 | Stripping twice is stripping once |
| Text.WordsOfJoin | app.py:64-65 | Splitting a single-space join of words gives the words back |
| Uploads.LastDot | app.py:28-29 | The index found holds a "." and no "." follows it; with no index found, the name holds no "." |
| Uploads.AllowedFile | app.py:28-29 | An accepted name holds a dot, and the part after its last dot has 3 or 4 characters, as every allowed extension does |
| Uploads.AllowedFileNeedsDot | app.py:28-29 | A file name without a dot is rejected |
| Uploads.AllowedFileByExtension | app.py:21-29 | A name with a dot is accepted exactly when the part after its last dot, lower-cased, is png, jpg, jpeg, gif or webp |
| Uploads.AllowedFileUpperCase | app.py:28-29 | "foto.JPG" is accepted: the extension test ignores case |
| Uploads.AllowedFileLastDot | app.py:28-29 | "foto.png.pdf" is rejected: only the part after the last dot counts |
| Uploads.AllowedFileManyDots | app.py:28-29 | "scan.v2.webp" is accepted: earlier dots do not matter |
| Auth.LoginRequired | app.py:299-305 | The handler runs exactly when a user id is in the session, and otherwise redirects to login |
| Auth.AdminRequired | app.py:308-315 | The handler runs exactly for a logged-in session whose role is "admin", and otherwise redirects to the dashboard |
| Auth.OpenSession | app.py:464-467 | A login stores the user id and name, and the stored role, defaulting to "operador" when it is empty |
| Auth.Logout | app.py:475-479 | The whole session is cleared: no user id, no username and no role remain |
| Auth.AdminImpliesLogin | app.py:299-315 | Whatever passes the admin guard passes the login guard |
| Auth.LoginGrants | app.py:299-315 | A fresh login passes the login guard, and passes the admin guard exactly when the stored role is "admin" |
| Auth.LogoutDenies | app.py:475-479 | After logout the login guard redirects to login and the admin guard redirects to the dashboard |
| Records.ItemsUpTo | app.py:1166-1167 | The job's line scan returns only that job's lines, and every such line below the bound |
| Records.ItemsUpToRows | app.py:1166-1167 | The scan has one entry per matching row, in id order: its i-th entry is the row at the i-th id of the job's lines, so two equal lines are both returned |
| Records.FacturaBelow | app.py:1180-1185 | The lookup finds the lowest-id factura of the job, or reports that the job has none |
| Records.FindFacturaOwn | app.py:1180-1185 | In a valid store, looking up a factura's job finds that factura |
| Records.FindFacturaNone | app.py:1180-1187 | In a valid store the lookup finds nothing exactly when no factura belongs to the job |
| Pricing.DiscountedExtremes | app.py:1206 | A 0% global discount keeps the base total and a 100% one makes the total 0 |
| Pricing.BaseTotalAppend | app.py:1170-1177 | The job total of two runs of lines is the sum of their totals |
| Pricing.SumLineTotals | app.py:1170-1177 | The left-to-right accumulation loop yields the job total: the sum of quantity × price × (1 − discount/100), with NULLs read as 0 |
| Pricing.LineTotalBounds | app.py:1172-1177 | A line with non-negative amounts and a discount in [0, 100] is worth between 0 and its undiscounted amount |
| Pricing.LineTotalExtremes | app.py:1177 | A 100% line discount makes the line free; a 0% one leaves quantity × price |
| Pricing.BaseTotalBounds | app.py:1170-1177 | With such lines the job total lies between 0 and the undiscounted total |
| Invoice.SyncFactura | app.py:1179-1211 | After the find-or-create step the job has a factura, the lookup finds it, and its total is the base total times the stored discount's factor; no other factura and no other table changes; existing facturas keep job, date and quote flag |
| Invoice.FacturaView | app.py:1147-1244 | The view redirects exactly when the job is unknown, and then changes nothing; it shows the page exactly when the job, its vehicle and the vehicle's client all exist; a job whose vehicle is missing crashes before anything is written |
| Invoice.ViewShowsTotals | app.py:1169-1244 | The page shows the job's base total, and the discount (0 for NULL) and cached total of the factura the store now holds for the job; that total is the base total times the discount's factor |
| Invoice.ViewFrame | app.py:1179-1211 | A view writes only facturas and the id counter; every existing factura keeps its job, date and quote flag; a valid store stays valid |
| Invoice.SyncValid | app.py:1179-1211 | The find-or-create step keeps a valid store valid, with at most one factura per job |
| Invoice.LazyCreation | app.py:1187-1199 | When the job has no factura, exactly one is created: a draft quote dated today with discount 0 and total equal to the base total; no other factura changes |
| Invoice.Recompute | app.py:1200-1211 | When a factura exists, its total becomes base total × (1 − discount/100), with a NULL discount written back as 0; the quote flag and every other factura stay |
| Invoice.Recomputed | app.py:1200-1211 | Recomputing keeps the factura's job, date and quote flag, keeps a set discount and turns a NULL one into 0, and sets the total to the base total times that discount's factor |
| Invoice.InvoicePage | app.py:1213-1244 | The page shows the factura's id, date and cached total, the given base total, the stored discount with NULL read as 0, and the WhatsApp form of the client's phone; it shows the factura as confirmed exactly when its flag is 0; a factura whose total matches its discount is shown consistently |
| Invoice.RecomputedFixed | app.py:1200-1211 | Recomputing a factura whose total already matches its set discount changes nothing |
| Invoice.SyncIdempotent | app.py:1179-1211 | A second find-or-create, on any later day, writes back exactly the facturas and counter of the first |
| Invoice.ViewIdempotent | app.py:1147-1211 | Viewing twice, on any days, leaves the store as viewing once |
| Invoice.ReparacionDetalle | app.py:883-920 | The detail view shows a total exactly when the job and its vehicle exist, crashes exactly when the job exists without its vehicle, and the total it shows is the job's base total |
| Invoice.DetailMatchesInvoice | app.py:912-920 | The detail view and the invoice view show the same job total |
| Invoice.FacturaDescuento | app.py:1247-1264 | An unknown id changes nothing; otherwise only the global discount is stored (empty field → 0), not even the cached total changes |
| Invoice.DiscountThenView | app.py:1253-1263 | After setting discount d and following the redirect to the invoice view, the total is base × (1 − d/100): d = 0 keeps the base total and d = 100 gives 0 |
| Invoice.FacturaConfirmar | app.py:1267-1289 | An unknown id changes nothing; otherwise the factura becomes confirmed (flag 0) and its job, if present, is marked "Facturada"; nothing else changes; validity is kept |
| Invoice.ConfirmIdempotent | app.py:1267-1289 | Confirming twice is confirming once |
| Invoice.ViewKeepsConfirmation | app.py:1200-1211 | A view after confirmation leaves the factura confirmed |
| Mutations.ReparacionEliminar | app.py:857-878 | An unknown job changes nothing; otherwise exactly the job and its lines are deleted; every other job and line, and every other table, stays |
| Mutations.EliminarItems | app.py:872-873 | After the delete the job has no lines and every other job reads exactly its old lines |
| Mutations.EliminarKeepsFacturas | app.py:872-873 | Facturas and images survive the delete, every lookup finds what it found before, and validity is kept |
| Mutations.EliminarThenViews | app.py:872-873 | Once the job is gone, its invoice view and its detail view both redirect |
| Mutations.ClienteEliminar | app.py:618-627 | Only the client row is deleted; its vehicles and every other table stay |
| Mutations.ClienteEliminarOrphans | app.py:1160-1214 | A job of a deleted client's vehicle keeps its detail page, but its invoice view writes the factura and then fails on the missing client |
| Mutations.ConceptoInsertOrIgnore | app.py:981-984 | Afterwards the name is a suggestion; a name already stored leaves the store unchanged; existing suggestions stay |
| Mutations.ConceptoValues | app.py:981-984 | In a valid store the suggestions become the old ones plus the name, still unique |
| Mutations.ConceptoIdempotent | app.py:981-984 | Inserting a name twice is inserting it once |
| Mutations.NewItem | app.py:969-973 | The line belongs to the job; empty amounts are stored as 0; an empty type becomes "SERVICIO" |
| Mutations.NewItemConcept | app.py:969 | The stored concept is formatear_mayus of the typed text |
| Mutations.ItemNuevo | app.py:958-988 | An unknown job changes nothing; otherwise the line is stored under a fresh id and its concept is a suggestion; no other table changes |
| Mutations.ItemNuevoValid | app.py:976-984 | Adding a line keeps a valid store valid |
| Mutations.ItemNuevoLines | app.py:976-979 | The new line is the job's last line, and every other job keeps its lines |
| Mutations.ItemNuevoTotal | app.py:976-979 | The job total grows by exactly the new line's total |
| Ledger.WindowEmpty | app.py:378-385 | A window whose start is after its end sums to 0 |
| Ledger.WindowNonNegative | app.py:378-393 | With no negative amounts a window sum is not negative |
| Ledger.WindowSplit | app.py:378-393 | The sum over [from, to] is the sum over [from, mid] plus the sum over [mid+1, to] |
| Ledger.WindowFrame | app.py:378-393 | Two tables whose rows contribute alike give the same sum |
| Ledger.WindowBeyond | app.py:378-393 | Rows beyond the id bound do not change the sum |
| Ledger.WindowUpdate | app.py:378-385 | Replacing one row changes the sum by the new row's contribution minus the old one's |
| Ledger.WindowRemove | app.py:378-385 | Removing one row takes away exactly its contribution |
| Ledger.DaySums | app.py:401-424 | One sum per day, the i-th being the sum for day from + i |
| Ledger.DaySumsTotal | app.py:374-424 | The per-day sums of a run of days add up to the sum over the whole run |
| Dashboard.BuildDashboard | app.py:356-424 | The three cards count exactly the jobs in "En proceso", the jobs in "Ingresado", "En proceso" or "Esperando repuesto", and the jobs dated today; in-process ≤ pending ≤ all jobs, and today's jobs ≤ all jobs; the 7-day income and expenses are the window sums over [today − 6, today], and the balance is their difference; the series has 7 consecutive days, oldest first, ending today, each with that day's income and expenses |
| Dashboard.JobsInMono | app.py:357-367 | Counting over more states never counts fewer jobs, so the in-process jobs are among the pending ones |
| Dashboard.JobsInUnion | app.py:357-367 | Counts over two sets of states with none in common add up, since a job has one state |
| Dashboard.ConfirmMovesCounts | app.py:1267-1289 | Confirming a factura takes its job out of every count over states other than "Facturada", lowering it by one when the job was counted there, adds it to the "Facturada" jobs, and leaves the jobs-of-the-day count alone |
| Dashboard.EliminarMovesCounts | app.py:857-878 | Deleting a job takes it out of every state count and the jobs-of-the-day count, lowering each by one exactly when the job was counted there |
| Dashboard.SeriesMatchTotals | app.py:374-424 | The daily income and expense figures add up to the 7-day totals |
| Dashboard.IncomeAfterPut | app.py:378-385 | Storing a factura under an existing id moves income by its contribution, if it counts, minus the old row's |
| Dashboard.UncountedKeepsIncome | app.py:378-385 | Adding a factura that does not count, under a fresh id, leaves every income sum unchanged |
| Dashboard.LazyCreationKeepsIncome | app.py:1187-1199 | The draft quote created by a first view does not change income |
| Dashboard.QuoteViewKeepsIncome | app.py:1200-1211 | Viewing a job whose factura is still a quote does not change income |
| Dashboard.ConfirmedViewMovesIncome | app.py:1200-1211 | Viewing a counted factura dated inside the window moves income by the difference between its new and old totals |
| Dashboard.ConfirmAddsIncome | app.py:1281-1284 | Confirming a quote adds its total to the income of the windows holding its date, and to no other |
| Dashboard.DeletesKeepSums | app.py:378-393 | Deleting a job or a client changes no income or expense sum |
| Dashboard.NullFlagReadsBothWays | app.py:1204-1205 | A factura with a NULL flag counts as income, yet its invoice page shows it as a quote |

## Left out

- Flask routing, templates, `url_for` and the redirect targets: presentation. Redirects and crashes are kept as outcomes where they decide whether anything is written.
- SQLite itself, the `init_db` schema migration, `backup_db`, `get_last_backup_datetime` and the clock. These are I/O; "today" is a parameter.
- Per-table AUTOINCREMENT sequences. One counter gives every new row a fresh id, which is all the modelled code relies on.
- ISO date strings. Dates are day numbers. `BETWEEN` and equality on well-formed ISO dates agree with comparison of day numbers.
- File uploads, `secure_filename` and `os.remove`. These are filesystem I/O; only `allowed_file` is modelled.
- The password lookup of `login`, and Flask's session mechanics. The guards are modelled over an explicit session record.
- Floating-point rounding. Amounts are exact reals.
- `float(...)` parsing of form fields, and its `ValueError` on non-numeric text. Form amounts arrive as `Option<real>`, with `None` for an empty field.
- Characters outside Latin-1 in the text helpers. Digits are ASCII; whitespace and case mapping follow Python within Latin-1. The letters ß, ÿ and µ are left as they are, because Python maps them outside Latin-1 or to two characters. The non-ASCII digits that `str.isdigit` accepts, such as superscripts, are not modelled.
- The record lists the dashboard renders (jobs in process, upcoming appointments). They are plain queries with no logic of their own.
- The CRUD routes outside the core: clients, vehicles, jobs, appointments, expenses and users, plus `item_editar`, `item_eliminar`, `item_concepto_eliminar` and the image routes. They are form-to-table plumbing. `LIKE` search is database behaviour.
- Invoice.SyncIdempotent: states the second sync's effect on facturas and the counter only. Its equality of whole stores is stated by Invoice.ViewIdempotent.

=== FILE: auth.dfy ===
/**
 * The two route guards `login_required` and `admin_required`, over an explicit
 * session record instead of Flask's ambient session.
 */
module Auth {
  import opened Wrappers

  /** The keys the login route stores; `None` is a key absent from the session. */
  datatype Session = Session(userId: Option<int>, username: Option<string>, rol: Option<string>)

  /** What a guarded route does: run its handler, or redirect. */
  datatype Access = Proceed | RedirectToLogin | RedirectToDashboard

  const AdminRole: string := "admin"
  const DefaultRole: string := "operador"

  /** The empty session left by `logout` (`session.clear()`). */
  const Anonymous: Session := Session(None, None, None)

  predicate Authenticated(s: Session) {
    s.userId.Some?
  }

  /** `login_required`: run the handler only when a user id is in the session. */
  function LoginRequired(s: Session): (a: Access)
    ensures a == Proceed <==> Authenticated(s)
    ensures a != RedirectToDashboard
  {
    if s.userId.None? then RedirectToLogin else Proceed
  }

  /** `admin_required`: run the handler only for a logged-in admin, else go to the dashboard. */
  function AdminRequired(s: Session): (a: Access)
    ensures a == Proceed <==> Authenticated(s) && s.rol == Some(AdminRole)
    ensures a != RedirectToLogin
  {
    if s.userId.None? || s.rol != Some(AdminRole) then RedirectToDashboard else Proceed
  }

  /** The session a successful login opens; a missing or empty stored role reads as "operador". */
  function OpenSession(userId: int, username: string, storedRol: Option<string>): (s: Session)
    ensures s.userId == Some(userId) && s.username == Some(username)
    ensures storedRol.None? || storedRol.value == "" ==> s.rol == Some(DefaultRole)
    ensures storedRol.Some? && storedRol.value != "" ==> s.rol == storedRol
  {
    var rol := if storedRol.None? || storedRol.value == "" then DefaultRole else storedRol.value;
    Session(Some(userId), Some(username), Some(rol))
  }

  /** `logout` clears the session whatever it held. */
  function Logout(s: Session): (r: Session)
    ensures !Authenticated(r) && r.username.None? && r.rol.None?
  {
    Anonymous
  }

  /** Every route an admin may use is also open to them as a logged-in user. */
  lemma AdminImpliesLogin(s: Session)
    requires AdminRequired(s) == Proceed
    ensures LoginRequired(s) == Proceed
  {
  }

  /** A fresh login passes `login_required`, and `admin_required` exactly when the stored role is "admin". */
  lemma LoginGrants(userId: int, username: string, storedRol: Option<string>)
    ensures LoginRequired(OpenSession(userId, username, storedRol)) == Proceed
    ensures AdminRequired(OpenSession(userId, username, storedRol)) == Proceed <==> storedRol == Some(AdminRole)
  {
  }

  /** After logout both guards turn the request away. */
  lemma LogoutDenies(s: Session)
    ensures LoginRequired(Logout(s)) == RedirectToLogin
    ensures AdminRequired(Logout(s)) == RedirectToDashboard
  {
  }
}

=== FILE: dashboard.dfy ===
/**
 * The dashboard's figures: job counts by state, and income and expenses over
 * the last seven days with their day-by-day series.
 */
module Dashboard {
  import opened Wrappers
  import opened Records
  import opened Ledger
  import opened Invoice
  import opened Mutations

  const EnProceso: string := "En proceso"
  /** The states the pending count looks for: not finished, delivered or invoiced. */
  const PendingEstados: set<string> := {"Ingresado", "En proceso", "Esperando repuesto"}
  /** The window is today and the six days before it. */
  const WindowDays: nat := 7

  /** `es_presupuesto IS NULL OR es_presupuesto = 0`: the factura counts as income. */
  predicate Counted(f: Factura) {
    f.esPresupuesto.None? || f.esPresupuesto == Some(Confirmada)
  }

  /** The facturas that count as income, as dated amounts. */
  function IncomeLedger(fs: map<nat, Factura>): (l: map<nat, Entry>)
    ensures forall k :: k in l <==> k in fs && Counted(fs[k])
    ensures forall k :: k in l ==> l[k] == Entry(fs[k].fecha, fs[k].total)
  {
    map k | k in fs && Counted(fs[k]) :: Entry(fs[k].fecha, fs[k].total)
  }

  function ExpenseLedger(gs: map<nat, Gasto>): (l: map<nat, Entry>)
    ensures forall k :: k in l <==> k in gs
    ensures forall k :: k in l ==> l[k] == Entry(gs[k].fecha, gs[k].monto)
  {
    map k | k in gs :: Entry(gs[k].fecha, gs[k].monto)
  }

  /** Income between days `from` and `to`, both included. */
  function Income(s: Store, from: int, to: int): real {
    WindowSum(IncomeLedger(s.facturas), from, to, s.nextId)
  }

  /** Expenses between days `from` and `to`, both included. */
  function Expenses(s: Store, from: int, to: int): real {
    WindowSum(ExpenseLedger(s.gastos), from, to, s.nextId)
  }

  /** The ids of the jobs whose state is one of `estados`. */
  function JobsIn(s: Store, estados: set<string>): (r: set<nat>)
    ensures forall k :: k in r <==> k in s.reparaciones && s.reparaciones[k].estado in estados
  {
    set k | k in s.reparaciones && s.reparaciones[k].estado in estados
  }

  function JobsOn(s: Store, day: int): (r: set<nat>)
    ensures forall k :: k in r <==> k in s.reparaciones && s.reparaciones[k].fecha == day
  {
    set k | k in s.reparaciones && s.reparaciones[k].fecha == day
  }

  datatype DashboardData = DashboardData(
    enProceso: nat, pendientes: nat, hoy: nat,
    ingresos7: real, gastos7: real, balance7: real,
    labels: seq<int>, ingresosPorDia: seq<real>, gastosPorDia: seq<real>)

  lemma SubsetCard(a: set<nat>, b: set<nat>)
    requires a <= b
    ensures |a| <= |b|
  {
    if a != {} {
      var x :| x in a;
      SubsetCard(a - {x}, b - {x});
    }
  }

  /** The days from `from` on, one per entry, oldest first. */
  function Days(from: int, days: nat): (r: seq<int>)
    ensures |r| == days
    ensures forall i :: 0 <= i < days ==> r[i] == from + i
  {
    if days == 0 then [] else Days(from, days - 1) + [from + days - 1]
  }

  /**
   * The dashboard `/` for day `today`: the counts, the seven-day totals and
   * balance, and the per-day series from six days ago up to today.
   */
  function BuildDashboard(s: Store, today: int): (d: DashboardData)
    ensures d.enProceso == |JobsIn(s, {EnProceso})| && d.pendientes == |JobsIn(s, PendingEstados)|
    ensures d.hoy == |JobsOn(s, today)|
    ensures d.enProceso <= d.pendientes <= |s.reparaciones.Keys|
    ensures d.hoy <= |s.reparaciones.Keys|
    ensures |d.labels| == |d.ingresosPorDia| == |d.gastosPorDia| == WindowDays
    ensures d.labels[0] == today - 6 && d.labels[WindowDays - 1] == today
    ensures forall i :: 0 <= i < WindowDays - 1 ==> d.labels[i] + 1 == d.labels[i + 1]
    ensures forall i :: 0 <= i < WindowDays ==>
      d.ingresosPorDia[i] == Income(s, d.labels[i], d.labels[i]) && d.gastosPorDia[i] == Expenses(s, d.labels[i], d.labels[i])
    ensures d.ingresos7 == Income(s, today - 6, today) && d.gastos7 == Expenses(s, today - 6, today)
    ensures d.balance7 == d.ingresos7 - d.gastos7
  {
    var from := today - (WindowDays - 1);
    var enProceso := JobsIn(s, {EnProceso});
    var pendientes := JobsIn(s, PendingEstados);
    SubsetCard(enProceso, pendientes);
    SubsetCard(pendientes, s.reparaciones.Keys);
    SubsetCard(JobsOn(s, today), s.reparaciones.Keys);
    var ingresos := Income(s, from, today);
    var gastos := Expenses(s, from, today);
    DashboardData(
      |enProceso|, |pendientes|, |JobsOn(s, today)|,
      ingresos, gastos, ingresos - gastos,
      Days(from, WindowDays),
      DaySums(IncomeLedger(s.facturas), from, WindowDays, s.nextId),
      DaySums(ExpenseLedger(s.gastos), from, WindowDays, s.nextId))
  }

  /** Counting over more states never counts fewer jobs. */
  lemma JobsInMono(s: Store, a: set<string>, b: set<string>)
    requires a <= b
    ensures JobsIn(s, a) <= JobsIn(s, b) && |JobsIn(s, a)| <= |JobsIn(s, b)|
  {
    SubsetCard(JobsIn(s, a), JobsIn(s, b));
  }

  /** A job has one state, so the counts over two sets of states with none in common add up. */
  lemma JobsInUnion(s: Store, a: set<string>, b: set<string>)
    requires a !! b
    ensures |JobsIn(s, a + b)| == |JobsIn(s, a)| + |JobsIn(s, b)|
  {
    assert JobsIn(s, a + b) == JobsIn(s, a) + JobsIn(s, b);
    assert JobsIn(s, a) !! JobsIn(s, b);
  }

  /** Taking one element out of a set lowers its size by one exactly when it was there. */
  lemma CardRemove(a: set<nat>, x: nat)
    ensures |a - {x}| == if x in a then |a| - 1 else |a|
  {
    if x in a {
      assert a == (a - {x}) + {x};
    } else {
      assert a - {x} == a;
    }
  }

  /**
   * Confirming the factura of job `rid` marks the job "Facturada": it leaves
   * every count over states other than "Facturada", joins the "Facturada"
   * jobs, keeps its date, and no other job moves.
   */
  lemma ConfirmMovesCounts(s: Store, fid: nat, estados: set<string>, day: int)
    requires fid in s.facturas && s.facturas[fid].reparacionId in s.reparaciones
    requires EstadoFacturada !in estados
    ensures var rid := s.facturas[fid].reparacionId;
      && JobsIn(FacturaConfirmar(s, fid), estados) == JobsIn(s, estados) - {rid}
      && |JobsIn(FacturaConfirmar(s, fid), estados)| == |JobsIn(s, estados)| - (if rid in JobsIn(s, estados) then 1 else 0)
      && JobsIn(FacturaConfirmar(s, fid), {EstadoFacturada}) == JobsIn(s, {EstadoFacturada}) + {rid}
      && JobsOn(FacturaConfirmar(s, fid), day) == JobsOn(s, day)
  {
    var rid := s.facturas[fid].reparacionId;
    ConfirmJobsIn(s, fid, estados);
    CardRemove(JobsIn(s, estados), rid);
    ConfirmJobsIn(s, fid, {EstadoFacturada});
    ConfirmJobsOn(s, fid, day);
  }

  /** Confirming moves the factura's job into "Facturada" and leaves every other job's state. */
  lemma ConfirmJobsIn(s: Store, fid: nat, estados: set<string>)
    requires fid in s.facturas && s.facturas[fid].reparacionId in s.reparaciones
    ensures EstadoFacturada !in estados ==>
      JobsIn(FacturaConfirmar(s, fid), estados) == JobsIn(s, estados) - {s.facturas[fid].reparacionId}
    ensures EstadoFacturada in estados ==>
      JobsIn(FacturaConfirmar(s, fid), estados) == JobsIn(s, estados) + {s.facturas[fid].reparacionId}
  {
  }

  lemma ConfirmJobsOn(s: Store, fid: nat, day: int)
    ensures JobsOn(FacturaConfirmar(s, fid), day) == JobsOn(s, day)
  {
  }

  /** Deleting job `rid` takes it out of every count and leaves the other jobs counted as before. */
  lemma EliminarMovesCounts(s: Store, rid: nat, estados: set<string>, day: int)
    ensures JobsIn(ReparacionEliminar(s, rid), estados) == JobsIn(s, estados) - {rid}
    ensures |JobsIn(ReparacionEliminar(s, rid), estados)| == |JobsIn(s, estados)| - (if rid in JobsIn(s, estados) then 1 else 0)
    ensures JobsOn(ReparacionEliminar(s, rid), day) == JobsOn(s, day) - {rid}
    ensures |JobsOn(ReparacionEliminar(s, rid), day)| == |JobsOn(s, day)| - (if rid in JobsOn(s, day) then 1 else 0)
  {
    EliminarJobsIn(s, rid, estados);
    CardRemove(JobsIn(s, estados), rid);
    EliminarJobsOn(s, rid, day);
    CardRemove(JobsOn(s, day), rid);
  }

  lemma EliminarJobsIn(s: Store, rid: nat, estados: set<string>)
    ensures JobsIn(ReparacionEliminar(s, rid), estados) == JobsIn(s, estados) - {rid}
  {
  }

  lemma EliminarJobsOn(s: Store, rid: nat, day: int)
    ensures JobsOn(ReparacionEliminar(s, rid), day) == JobsOn(s, day) - {rid}
  {
  }

  /** The chart's bars add up to the cards: the daily income and expense sums total the seven-day ones. */
  lemma SeriesMatchTotals(s: Store, today: int)
    ensures var d := BuildDashboard(s, today);
      Total(d.ingresosPorDia) == d.ingresos7 && Total(d.gastosPorDia) == d.gastos7
  {
    DaySumsTotal(IncomeLedger(s.facturas), today - 6, WindowDays, s.nextId);
    DaySumsTotal(ExpenseLedger(s.gastos), today - 6, WindowDays, s.nextId);
  }

  /**
   * Putting factura `f` under id `k` below the counter moves income by what
   * `f` contributes, if it counts, minus what the old row at `k` contributed.
   */
  lemma IncomeAfterPut(s: Store, k: nat, f: Factura, from: int, to: int)
    requires k < s.nextId
    ensures WindowSum(IncomeLedger(s.facturas[k := f]), from, to, s.nextId)
            == Income(s, from, to) - Contribution(IncomeLedger(s.facturas), k, from, to)
               + (if Counted(f) && from <= f.fecha <= to then f.total else 0.0)
  {
    var l := IncomeLedger(s.facturas);
    if Counted(f) {
      assert IncomeLedger(s.facturas[k := f]) == l[k := Entry(f.fecha, f.total)];
      WindowUpdate(l, k, Entry(f.fecha, f.total), from, to, s.nextId);
    } else {
      assert IncomeLedger(s.facturas[k := f]) == l - {k};
      WindowRemove(l, k, from, to, s.nextId);
    }
  }

  /** Storing a factura that does not count, under a fresh id, leaves every income sum as it was. */
  lemma UncountedKeepsIncome(s: Store, k: nat, f: Factura, n: nat, from: int, to: int)
    requires KeysBelow(s.facturas, s.nextId) && s.nextId <= k < n && !Counted(f)
    ensures WindowSum(IncomeLedger(s.facturas[k := f]), from, to, n) == Income(s, from, to)
  {
    var l := IncomeLedger(s.facturas);
    assert IncomeLedger(s.facturas[k := f]) == l;
    WindowBeyond(l, from, to, s.nextId, n);
  }

  /**
   * The first view of a job's invoice creates a draft quote, which does not
   * count: income is unchanged, whatever the window.
   */
  lemma LazyCreationKeepsIncome(s: Store, rid: nat, today: int, from: int, to: int)
    requires Valid(s) && Reachable(s, rid)
    requires forall k :: k in s.facturas ==> s.facturas[k].reparacionId != rid
    ensures Income(FacturaView(s, rid, today).0, from, to) == Income(s, from, to)
  {
    var s' := FacturaView(s, rid, today).0;
    LazyPutsQuote(s, rid, today);
    UncountedKeepsIncome(s, s.nextId, s'.facturas[s.nextId], s.nextId + 1, from, to);
  }

  /** The first view adds one draft quote under the counter and moves the counter past it. */
  lemma LazyPutsQuote(s: Store, rid: nat, today: int)
    requires Valid(s) && Reachable(s, rid)
    requires forall k :: k in s.facturas ==> s.facturas[k].reparacionId != rid
    ensures var s' := FacturaView(s, rid, today).0;
      && s'.facturas == s.facturas[s.nextId := s'.facturas[s.nextId]]
      && s'.nextId == s.nextId + 1 && !Counted(s'.facturas[s.nextId])
  {
    var s' := FacturaView(s, rid, today).0;
    LazyCreation(s, rid, today);
    ViewFrame(s, rid, today);
    FacturasPut(s.facturas, s'.facturas, s.nextId);
  }

  /** A table that gains key `k` and keeps every other row is the old one with `k` put in. */
  lemma FacturasPut(fs: map<nat, Factura>, fs': map<nat, Factura>, k: nat)
    requires fs'.Keys == fs.Keys + {k} && k in fs'
    requires forall j :: j in fs && j != k ==> fs'[j] == fs[j]
    requires k !in fs
    ensures fs' == fs[k := fs'[k]]
  {
  }

  /** The factura a view leaves under `fid`, and the store it leaves, as one update. */
  lemma ViewPutsFactura(s: Store, rid: nat, today: int, fid: nat)
    requires Reachable(s, rid) && FindFactura(s, rid) == Some(fid)
    ensures var s' := FacturaView(s, rid, today).0;
      s'.facturas == s.facturas[fid := s'.facturas[fid]] && s'.nextId == s.nextId
      && Counted(s'.facturas[fid]) == Counted(s.facturas[fid])
  {
    Recompute(s, rid, today, fid);
  }

  /** Viewing the invoice of a job whose factura is still a quote leaves income unchanged. */
  lemma QuoteViewKeepsIncome(s: Store, rid: nat, today: int, fid: nat, from: int, to: int)
    requires Reachable(s, rid) && FindFactura(s, rid) == Some(fid)
    requires !Counted(s.facturas[fid])
    ensures Income(FacturaView(s, rid, today).0, from, to) == Income(s, from, to)
  {
    var s' := FacturaView(s, rid, today).0;
    ViewPutsFactura(s, rid, today, fid);
    IncomeAfterPut(s, fid, s'.facturas[fid], from, to);
  }

  /**
   * Viewing the invoice of a confirmed factura rewrites its total, so the
   * income of a window holding its date moves by the difference.
   */
  lemma ConfirmedViewMovesIncome(s: Store, rid: nat, today: int, fid: nat, from: int, to: int)
    requires Reachable(s, rid) && FindFactura(s, rid) == Some(fid)
    requires Counted(s.facturas[fid]) && from <= s.facturas[fid].fecha <= to
    ensures var s' := FacturaView(s, rid, today).0;
      Income(s', from, to) == Income(s, from, to) - s.facturas[fid].total + s'.facturas[fid].total
  {
    var s' := FacturaView(s, rid, today).0;
    ViewPutsFactura(s, rid, today, fid);
    Recompute(s, rid, today, fid);
    IncomeAfterPut(s, fid, s'.facturas[fid], from, to);
  }

  /**
   * Confirming a draft quote adds its total to the income of every window
   * holding its date, and to no other.
   */
  lemma ConfirmAddsIncome(s: Store, fid: nat, from: int, to: int)
    requires Valid(s) && fid in s.facturas && !Counted(s.facturas[fid])
    ensures var f := s.facturas[fid];
      Income(FacturaConfirmar(s, fid), from, to) == Income(s, from, to) + (if from <= f.fecha <= to then f.total else 0.0)
  {
    var f' := s.facturas[fid].(esPresupuesto := Some(Confirmada));
    ConfirmPuts(s, fid);
    IncomeAfterPut(s, fid, f', from, to);
  }

  /** Confirming rewrites only the flag of factura `fid`. */
  lemma ConfirmPuts(s: Store, fid: nat)
    requires fid in s.facturas
    ensures FacturaConfirmar(s, fid).facturas == s.facturas[fid := s.facturas[fid].(esPresupuesto := Some(Confirmada))]
  {
  }

  /** Deleting a job, or a client, keeps every income and expense sum: facturas and expenses stay. */
  lemma DeletesKeepSums(s: Store, rid: nat, cid: nat, from: int, to: int)
    ensures Income(ReparacionEliminar(s, rid), from, to) == Income(s, from, to)
    ensures Expenses(ReparacionEliminar(s, rid), from, to) == Expenses(s, from, to)
    ensures Income(ClienteEliminar(s, cid), from, to) == Income(s, from, to)
    ensures Expenses(ClienteEliminar(s, cid), from, to) == Expenses(s, from, to)
  {
  }

  /**
   * A factura whose flag is NULL counts as income on the dashboard, yet its
   * invoice page shows it as a draft quote (the page reads NULL as 1).
   */
  lemma NullFlagReadsBothWays(f: Factura, fid: nat, base: real, telefono: Option<string>)
    requires f.esPresupuesto.None?
    ensures Counted(f) && InvoicePage(f, fid, base, telefono).esPresupuesto == Presupuesto
  {
  }
}

=== FILE: format.dfy ===
/** The text normalisers `formatear_mayus` and `formatear_titulo`. */
module Format {
  import opened Wrappers
  import opened Text

  /** No letter in `s` has a simple upper-case form left to apply. */
  predicate NoLowerCase(s: string) {
    forall i :: 0 <= i < |s| ==> !HasSimpleUpper(s[i])
  }

  /**
   * `formatear_mayus`: an absent or empty text becomes "", any other text is
   * stripped and upper-cased. The result differs from the stripped input only
   * in letter case.
   */
  function FormatearMayus(texto: Option<string>): (r: string)
    ensures texto.None? || texto.value == "" ==> r == ""
    ensures texto.Some? ==> |r| == |Strip(texto.value)| && Lower(r) == Lower(Strip(texto.value))
    ensures Unpadded(r) && NoLowerCase(r)
  {
    if texto.None? || texto.value == "" then ""
    else
      var t := Strip(texto.value);
      UpperFacts(t);
      Upper(t)
  }

  lemma UpperFacts(t: string)
    ensures |Upper(t)| == |t| && Lower(Upper(t)) == Lower(t) && NoLowerCase(Upper(t))
    ensures Unpadded(t) ==> Unpadded(Upper(t))
  {
    forall i | 0 <= i < |t| { CaseMapFacts(t[i]); }
  }

  /** Upper-casing an already formatted text changes nothing. */
  lemma MayusIdempotent(texto: Option<string>)
    ensures FormatearMayus(Some(FormatearMayus(texto))) == FormatearMayus(texto)
  {
    var r := FormatearMayus(texto);
    if r != "" {
      StripUnpadded(r);
      assert Upper(r) == r;
    }
  }

  /** `str.capitalize()`: the first character upper-cased, the rest lower-cased. */
  function Capitalize(w: string): string {
    if |w| == 0 then "" else [UpperChar(w[0])] + Lower(w[1..])
  }

  function CapitalizeAll(ws: seq<string>): seq<string> {
    seq(|ws|, i requires 0 <= i < |ws| => Capitalize(ws[i]))
  }

  /** Capitalizing keeps a word a word and is idempotent. */
  lemma CapitalizeWord(w: string)
    requires IsWord(w)
    ensures IsWord(Capitalize(w))
    ensures Capitalize(Capitalize(w)) == Capitalize(w)
  {
    forall i | 0 <= i < |w| { CaseMapFacts(w[i]); }
    var c := Capitalize(w);
    assert c[0] == UpperChar(w[0]);
    assert forall i :: 1 <= i < |c| ==> c[i] == LowerChar(w[i]);
  }

  lemma CapitalizeAllWords(ws: seq<string>)
    requires AllWords(ws)
    ensures AllWords(CapitalizeAll(ws))
    ensures CapitalizeAll(CapitalizeAll(ws)) == CapitalizeAll(ws)
  {
    forall k | 0 <= k < |ws| { CapitalizeWord(ws[k]); }
  }

  /**
   * `formatear_titulo`: an absent or empty text becomes "", any other text is
   * split on whitespace and its words capitalized and joined by single spaces.
   * The result has no padding, separates its words by exactly one space, and
   * splitting it gives the capitalized words of the stripped input in order.
   */
  function FormatearTitulo(texto: Option<string>): (r: string)
    ensures texto.None? || texto.value == "" ==> r == ""
    ensures Unpadded(r) && SingleSpaced(r)
    ensures texto.Some? ==> Words(r) == CapitalizeAll(Words(Strip(texto.value)))
  {
    if texto.None? then ""
    else if texto.value == "" then NothingToSplit(); ""
    else
      var ws := Words(Strip(texto.value));
      JoinedCapitals(ws);
      JoinWords(CapitalizeAll(ws))
  }

  /** The empty text strips to itself and has no words. */
  lemma NothingToSplit()
    ensures Words(Strip("")) == [] && CapitalizeAll([]) == []
  {
    assert Strip("") == "";
  }

  /** Joining the capitalized words gives an unpadded text that splits back into them. */
  lemma JoinedCapitals(ws: seq<string>)
    requires AllWords(ws)
    ensures Unpadded(JoinWords(CapitalizeAll(ws))) && SingleSpaced(JoinWords(CapitalizeAll(ws)))
    ensures Words(JoinWords(CapitalizeAll(ws))) == CapitalizeAll(ws)
  {
    CapitalizeAllWords(ws);
    JoinWordsUnpadded(CapitalizeAll(ws));
    JoinWordsSingleSpaced(CapitalizeAll(ws));
    WordsOfJoin(CapitalizeAll(ws));
  }

  /** Title-casing an already formatted text changes nothing. */
  lemma TituloIdempotent(texto: Option<string>)
    ensures FormatearTitulo(Some(FormatearTitulo(texto))) == FormatearTitulo(texto)
  {
    var r := FormatearTitulo(texto);
    if r != "" {
      var ws := Words(Strip(texto.value));
      var caps := CapitalizeAll(ws);
      CapitalizeAllWords(ws);
      StripUnpadded(r);
      WordsOfJoin(caps);
      assert Words(Strip(r)) == caps;
    }
  }

  lemma SplitExample()
    ensures Words(Strip("jUaN pEdRo")) == ["jUaN", "pEdRo"]
  {
    var ws := ["jUaN", "pEdRo"];
    assert AllWords(ws);
    assert JoinWords(ws) == "jUaN pEdRo";
    StripUnpadded("jUaN pEdRo");
    WordsOfJoin(ws);
  }

  lemma CapitalizeExample()
    ensures CapitalizeAll(["jUaN", "pEdRo"]) == ["Juan", "Pedro"]
  {
    assert Capitalize("jUaN") == "Juan" by {
      assert UpperChar('j') == 'J';
      assert Lower("UaN") == "uan" by {
        assert LowerChar('U') == 'u' && LowerChar('a') == 'a' && LowerChar('N') == 'n';
      }
    }
    assert Capitalize("pEdRo") == "Pedro" by {
      assert UpperChar('p') == 'P';
      assert Lower("EdRo") == "edro" by {
        assert LowerChar('E') == 'e' && LowerChar('d') == 'd' && LowerChar('R') == 'r' && LowerChar('o') == 'o';
      }
    }
  }

  lemma JoinExample()
    ensures JoinWords(["Juan", "Pedro"]) == "Juan Pedro"
  {
  }

  /** The example of the source's own documentation: 'jUaN pEdRo' becomes 'Juan Pedro'. */
  lemma TituloExample()
    ensures FormatearTitulo(Some("jUaN pEdRo")) == "Juan Pedro"
  {
    SplitExample();
    CapitalizeExample();
    JoinExample();
  }
}

=== FILE: invoice.dfy ===
/**
 * The quote/invoice engine of one repair job: the invoice view with its lazy
 * creation and recomputation of the factura, the detail view's total, the
 * global discount and the confirmation.
 */
module Invoice {
  import opened Wrappers
  import opened Records
  import opened Pricing
  import opened Text
  import opened Phone

  /** `es_presupuesto` values: 1 for a draft quote, 0 for a confirmed invoice. */
  const Presupuesto: int := 1
  const Confirmada: int := 0
  const EstadoFacturada: string := "Facturada"

  /** What the invoice page shows. */
  datatype InvoiceView = InvoiceView(
    facturaId: nat, fecha: int, baseTotal: real, descuentoGlobal: real,
    total: real, waPhone: string, esPresupuesto: int)

  /**
   * The end of an invoice-view request: a redirect when the job is unknown, a
   * crash (an unhandled `TypeError` on a missing row), or the page.
   */
  datatype ViewOutcome = RedirectToClientes | Crash | Shown(view: InvoiceView)

  /** Every pre-existing factura keeps its job, date and quote flag. */
  predicate KeepsFacturaIdentity(before: map<nat, Factura>, after: map<nat, Factura>) {
    forall k :: k in before ==>
      k in after && after[k].reparacionId == before[k].reparacionId
      && after[k].fecha == before[k].fecha && after[k].esPresupuesto == before[k].esPresupuesto
  }

  /**
   * The find-or-create step of the invoice view. With no factura for the job a
   * draft quote is inserted (discount 0, total = base total, dated today);
   * otherwise its total is recomputed from the live items and its stored
   * discount, a NULL discount being written back as 0.
   */
  function SyncFactura(s: Store, rid: nat, today: int): (r: (Store, nat))
    ensures r.1 in r.0.facturas && r.0.facturas[r.1].reparacionId == rid
    ensures FindFactura(r.0, rid) == Some(r.1)
    ensures r.0.facturas[r.1].descuentoGlobal.Some?
    ensures r.0.facturas[r.1].total == Discounted(BaseTotal(ItemsOf(s, rid)), r.0.facturas[r.1].descuentoGlobal.value)
    ensures r.0.(facturas := s.facturas, nextId := s.nextId) == s
    ensures forall k :: k in s.facturas && k != r.1 ==> k in r.0.facturas && r.0.facturas[k] == s.facturas[k]
    ensures KeysBelow(s.facturas, s.nextId) ==> KeepsFacturaIdentity(s.facturas, r.0.facturas)
  {
    var base := BaseTotal(ItemsOf(s, rid));
    match FindFactura(s, rid)
    case None =>
      var n := s.nextId;
      var fs := s.facturas[n := Factura(rid, today, base, Some(0.0), Some(Presupuesto))];
      FacturaBelowFrame(s.facturas, fs, rid, n);
      (s.(facturas := fs, nextId := n + 1), n)
    case Some(fid) =>
      var fs := s.facturas[fid := Recomputed(s.facturas[fid], base)];
      FacturaBelowFrame(s.facturas, fs, rid, s.nextId);
      (s.(facturas := fs), fid)
  }

  /** A factura after a recomputation from base total `base`: a NULL discount becomes 0. */
  function Recomputed(f: Factura, base: real): (r: Factura)
    ensures r.reparacionId == f.reparacionId && r.fecha == f.fecha && r.esPresupuesto == f.esPresupuesto
    ensures f.descuentoGlobal.Some? ==> r.descuentoGlobal == f.descuentoGlobal
    ensures f.descuentoGlobal.None? ==> r.descuentoGlobal == Some(0.0)
    ensures r.total == Discounted(base, r.descuentoGlobal.value)
  {
    var d := f.descuentoGlobal.GetOr(0.0);
    f.(total := Discounted(base, d), descuentoGlobal := Some(d))
  }

  /** The page of factura `fid`: its amounts, the job's base total and the client's WhatsApp number. */
  function InvoicePage(f: Factura, fid: nat, base: real, telefono: Option<string>): (v: InvoiceView)
    ensures v.facturaId == fid && v.fecha == f.fecha && v.baseTotal == base && v.total == f.total
    ensures v.descuentoGlobal == f.descuentoGlobal.GetOr(0.0)
    ensures v.waPhone == WhatsAppPhone(telefono)
    ensures v.esPresupuesto == Confirmada <==> f.esPresupuesto == Some(Confirmada)
    ensures f.descuentoGlobal.Some? && f.total == Discounted(base, f.descuentoGlobal.value) ==>
      v.total == Discounted(v.baseTotal, v.descuentoGlobal)
    ensures v.waPhone == "" || (StartsWith(v.waPhone, CountryCode) && AllDigits(v.waPhone))
  {
    InvoiceView(fid, f.fecha, base, f.descuentoGlobal.GetOr(0.0), f.total,
                WhatsAppPhone(telefono), f.esPresupuesto.GetOr(Presupuesto))
  }

  /**
   * The invoice view `reparacion_factura`: the new store and what the request
   * ends in. It redirects for an unknown job, shows the page when the job, its
   * vehicle and the vehicle's client all exist, and crashes otherwise; a
   * missing vehicle stops it before it writes anything.
   */
  function FacturaView(s: Store, rid: nat, today: int): (r: (Store, ViewOutcome))
    ensures r.1 == RedirectToClientes <==> rid !in s.reparaciones
    ensures r.1 == RedirectToClientes ==> r.0 == s
    ensures r.1.Shown? <==> Reachable(s, rid) && s.vehiculos[s.reparaciones[rid].vehiculoId].clienteId in s.clientes
    ensures rid in s.reparaciones && !Reachable(s, rid) ==> r.1 == Crash && r.0 == s
  {
    if rid !in s.reparaciones then (s, RedirectToClientes)
    else
      var vid := s.reparaciones[rid].vehiculoId;
      if vid !in s.vehiculos then (s, Crash)
      else
        var sync := SyncFactura(s, rid, today);
        var cid := s.vehiculos[vid].clienteId;
        if cid !in s.clientes then (sync.0, Crash)
        else (sync.0, Shown(InvoicePage(sync.0.facturas[sync.1], sync.1, BaseTotal(ItemsOf(s, rid)), s.clientes[cid].telefono)))
  }

  /** The page a view shows, when it shows one. */
  lemma ViewPage(s: Store, rid: nat, today: int)
    requires FacturaView(s, rid, today).1.Shown?
    ensures var sync := SyncFactura(s, rid, today);
      var cid := s.vehiculos[s.reparaciones[rid].vehiculoId].clienteId;
      && Reachable(s, rid) && cid in s.clientes
      && FacturaView(s, rid, today).1.view
         == InvoicePage(sync.0.facturas[sync.1], sync.1, BaseTotal(ItemsOf(s, rid)), s.clientes[cid].telefono)
  {
  }

  /**
   * The page shows the job's base total, the factura's discount (0 for NULL)
   * and a total equal to the base total times the discount factor, for the
   * factura the store now holds for the job.
   */
  lemma ViewShowsTotals(s: Store, rid: nat, today: int)
    requires FacturaView(s, rid, today).1.Shown?
    ensures var r := FacturaView(s, rid, today);
      && r.1.view.baseTotal == BaseTotal(ItemsOf(s, rid))
      && r.1.view.total == Discounted(r.1.view.baseTotal, r.1.view.descuentoGlobal)
      && FindFactura(r.0, rid) == Some(r.1.view.facturaId)
      && r.1.view.descuentoGlobal == r.0.facturas[r.1.view.facturaId].descuentoGlobal.GetOr(0.0)
      && r.1.view.total == r.0.facturas[r.1.view.facturaId].total
  {
    ViewPage(s, rid, today);
    ViewStore(s, rid, today);
    var sync := SyncFactura(s, rid, today);
    var f := sync.0.facturas[sync.1];
    assert f.descuentoGlobal.GetOr(0.0) == f.descuentoGlobal.value;
  }

  /**
   * A view writes only the facturas and the id counter; every factura that
   * existed keeps its job, date and quote flag, so viewing never confirms or
   * un-confirms anything; and the store stays valid.
   */
  lemma ViewFrame(s: Store, rid: nat, today: int)
    requires Valid(s)
    ensures var s' := FacturaView(s, rid, today).0;
      && s'.(facturas := s.facturas, nextId := s.nextId) == s
      && KeepsFacturaIdentity(s.facturas, s'.facturas)
      && Valid(s')
  {
    if Reachable(s, rid) {
      var sync := SyncFactura(s, rid, today);
      SyncValid(s, rid, today);
    }
  }

  lemma SyncValid(s: Store, rid: nat, today: int)
    requires Valid(s)
    ensures Valid(SyncFactura(s, rid, today).0)
  {
    var r := SyncFactura(s, rid, today);
    if FindFactura(s, rid).None? {
      FindFacturaNone(s, rid);
      assert r.1 == s.nextId;
      forall j, k | j in r.0.facturas && k in r.0.facturas && r.0.facturas[j].reparacionId == r.0.facturas[k].reparacionId
        ensures j == k
      {
      }
    } else {
      assert r.0.facturas.Keys == s.facturas.Keys;
    }
  }

  /** The job and its vehicle exist: the view reaches the factura step. */
  predicate Reachable(s: Store, rid: nat) {
    rid in s.reparaciones && s.reparaciones[rid].vehiculoId in s.vehiculos
  }

  /** In a valid store the counter is fresh for every table and adding one keeps every id below it. */
  lemma ItemsStable(s: Store, rid: nat, n: nat)
    requires KeysBelow(s.items, s.nextId) && n >= s.nextId
    ensures ItemsUpTo(s.items, rid, n) == ItemsOf(s, rid)
  {
    ItemsUpToFrame(s.items, s.items, rid, s.nextId);
    if n > s.nextId {
      ItemsStable(s, rid, n - 1);
    }
  }

  /**
   * First view of a job without a factura: exactly one factura of that job
   * exists afterwards, a draft quote dated today with discount 0 whose total
   * is the job's base total; no other factura changes.
   */
  lemma LazyCreation(s: Store, rid: nat, today: int)
    requires Valid(s) && Reachable(s, rid)
    requires forall k :: k in s.facturas ==> s.facturas[k].reparacionId != rid
    ensures var s' := FacturaView(s, rid, today).0;
      && (forall k :: k in s'.facturas && s'.facturas[k].reparacionId == rid <==> k == s.nextId)
      && s'.facturas[s.nextId] == Factura(rid, today, BaseTotal(ItemsOf(s, rid)), Some(0.0), Some(Presupuesto))
      && s'.facturas.Keys == s.facturas.Keys + {s.nextId}
      && (forall k :: k in s.facturas ==> s'.facturas[k] == s.facturas[k])
  {
    FindFacturaNone(s, rid);
  }

  /**
   * Every later view: the total is overwritten with base total times the
   * stored discount's factor (NULL read and written back as 0); the quote flag,
   * date and job stay, and no other factura changes.
   */
  lemma Recompute(s: Store, rid: nat, today: int, fid: nat)
    requires Reachable(s, rid) && FindFactura(s, rid) == Some(fid)
    ensures var s' := FacturaView(s, rid, today).0;
      var d := s.facturas[fid].descuentoGlobal.GetOr(0.0);
      && s'.nextId == s.nextId && s'.facturas.Keys == s.facturas.Keys
      && s'.facturas[fid].total == Discounted(BaseTotal(ItemsOf(s, rid)), d)
      && s'.facturas[fid].descuentoGlobal == Some(d)
      && s'.facturas[fid].esPresupuesto == s.facturas[fid].esPresupuesto
      && (forall k :: k in s.facturas && k != fid ==> s'.facturas[k] == s.facturas[k])
  {
    ViewStore(s, rid, today);
    SyncExisting(s, rid, today, fid);
  }

  /** The store a view leaves behind: the synced store when the factura step is reached. */
  lemma ViewStore(s: Store, rid: nat, today: int)
    ensures FacturaView(s, rid, today).0 == if Reachable(s, rid) then SyncFactura(s, rid, today).0 else s
  {
  }

  /** Recomputing a factura whose discount is set and whose total already matches changes nothing. */
  lemma RecomputedFixed(f: Factura, base: real)
    requires f.descuentoGlobal.Some? && f.total == Discounted(base, f.descuentoGlobal.value)
    ensures Recomputed(f, base) == f
  {
  }

  /** The sync of a job that already has its factura `fid`. */
  lemma SyncExisting(s: Store, rid: nat, today: int, fid: nat)
    requires FindFactura(s, rid) == Some(fid)
    ensures SyncFactura(s, rid, today).1 == fid
    ensures SyncFactura(s, rid, today).0.nextId == s.nextId
    ensures SyncFactura(s, rid, today).0.facturas == s.facturas[fid := Recomputed(s.facturas[fid], BaseTotal(ItemsOf(s, rid)))]
  {
  }

  lemma UpdateSame(m: map<nat, Factura>, k: nat)
    requires k in m
    ensures m[k := m[k]] == m
  {
  }

  /** Two stores that agree on the facturas and the counter and differ in nothing else are equal. */
  lemma FrameSame(r: Store, s: Store)
    requires r.facturas == s.facturas && r.nextId == s.nextId && r.(facturas := s.facturas, nextId := s.nextId) == s
    ensures r == s
  {
  }

  /** A second sync of the same job writes back exactly what the first one wrote. */
  lemma SyncIdempotent(s: Store, rid: nat, today: int, later: int)
    requires KeysBelow(s.items, s.nextId)
    ensures var s1 := SyncFactura(s, rid, today).0;
      SyncFactura(s1, rid, later).0.facturas == s1.facturas && SyncFactura(s1, rid, later).0.nextId == s1.nextId
  {
    var sync := SyncFactura(s, rid, today);
    var s1 := sync.0;
    var fid := sync.1;
    ItemsStable(s, rid, s1.nextId);
    var base := BaseTotal(ItemsOf(s, rid));
    assert ItemsOf(s1, rid) == ItemsOf(s, rid);
    var f := s1.facturas[fid];
    RecomputedFixed(f, base);
    SyncExisting(s1, rid, later, fid);
    UpdateSame(s1.facturas, fid);
  }

  /** Viewing twice leaves the store as viewing once, whatever day the second view happens on. */
  lemma ViewIdempotent(s: Store, rid: nat, today: int, later: int)
    requires Valid(s)
    ensures var s1 := FacturaView(s, rid, today).0; FacturaView(s1, rid, later).0 == s1
  {
    var s1 := FacturaView(s, rid, today).0;
    ViewStore(s, rid, today);
    ViewStore(s1, rid, later);
    if Reachable(s, rid) {
      SyncIdempotent(s, rid, today, later);
      FrameSame(SyncFactura(s1, rid, later).0, s1);
    }
  }

  /** The detail view `reparacion_detalle`: a redirect, a crash on a missing vehicle, or the job total. */
  datatype DetailOutcome = DetailToClientes | DetailCrash | DetailShown(total: real)

  function ReparacionDetalle(s: Store, rid: nat): (r: DetailOutcome)
    ensures r.DetailShown? <==> Reachable(s, rid)
    ensures r.DetailCrash? <==> rid in s.reparaciones && !Reachable(s, rid)
    ensures r.DetailShown? ==> r.total == BaseTotal(ItemsOf(s, rid))
  {
    if rid !in s.reparaciones then DetailToClientes
    else if s.reparaciones[rid].vehiculoId !in s.vehiculos then DetailCrash
    else DetailShown(BaseTotal(ItemsOf(s, rid)))
  }

  /** The detail view and the invoice view show the same base total for a job. */
  lemma DetailMatchesInvoice(s: Store, rid: nat, today: int)
    requires FacturaView(s, rid, today).1.Shown?
    ensures ReparacionDetalle(s, rid) == DetailShown(FacturaView(s, rid, today).1.view.baseTotal)
  {
  }

  /**
   * `factura_descuento`: stores the given global discount (an empty field
   * reads as 0) on an existing factura and changes nothing else, not even the
   * cached total.
   */
  function FacturaDescuento(s: Store, fid: nat, input: Option<real>): (r: Store)
    ensures fid !in s.facturas ==> r == s
    ensures r.(facturas := s.facturas) == s && r.facturas.Keys == s.facturas.Keys
    ensures fid in s.facturas ==>
      r.facturas[fid].descuentoGlobal == Some(input.GetOr(0.0))
      && r.facturas[fid].(descuentoGlobal := s.facturas[fid].descuentoGlobal) == s.facturas[fid]
    ensures forall k :: k in s.facturas && k != fid ==> r.facturas[k] == s.facturas[k]
    ensures Valid(s) ==> Valid(r)
  {
    var d := input.GetOr(0.0);
    if fid in s.facturas then
      s.(facturas := s.facturas[fid := s.facturas[fid].(descuentoGlobal := Some(d))])
    else s
  }

  /**
   * Setting discount d and viewing the invoice (the redirect the route issues)
   * leaves total = base total * (1 - d/100): d = 0 keeps the base total and
   * d = 100 makes it 0.
   */
  lemma DiscountThenView(s: Store, fid: nat, input: Option<real>, today: int)
    requires Valid(s) && fid in s.facturas && Reachable(s, s.facturas[fid].reparacionId)
    ensures var rid := s.facturas[fid].reparacionId;
      var s2 := FacturaView(FacturaDescuento(s, fid, input), rid, today).0;
      var base := BaseTotal(ItemsOf(s, rid));
      && s2.facturas[fid].total == Discounted(base, input.GetOr(0.0))
      && (input.GetOr(0.0) == 0.0 ==> s2.facturas[fid].total == base)
      && (input.GetOr(0.0) == 100.0 ==> s2.facturas[fid].total == 0.0)
  {
    var rid := s.facturas[fid].reparacionId;
    var s1 := FacturaDescuento(s, fid, input);
    var d := input.GetOr(0.0);
    FindFacturaOwn(s1, fid);
    ViewStore(s1, rid, today);
    var s2 := SyncFactura(s1, rid, today).0;
    assert ItemsOf(s1, rid) == ItemsOf(s, rid);
    assert s2.facturas[fid].total == Discounted(BaseTotal(ItemsOf(s, rid)), d);
    DiscountedExtremes(BaseTotal(ItemsOf(s, rid)));
  }

  /**
   * `factura_confirmar`: an unknown id changes nothing; otherwise the factura
   * becomes a confirmed invoice and its job, if it still exists, is marked
   * "Facturada". Nothing else changes.
   */
  function FacturaConfirmar(s: Store, fid: nat): (r: Store)
    ensures fid !in s.facturas ==> r == s
    ensures r.(facturas := s.facturas, reparaciones := s.reparaciones) == s
    ensures r.facturas.Keys == s.facturas.Keys && r.reparaciones.Keys == s.reparaciones.Keys
    ensures fid in s.facturas ==> r.facturas[fid] == s.facturas[fid].(esPresupuesto := Some(Confirmada))
    ensures fid in s.facturas && s.facturas[fid].reparacionId in s.reparaciones ==>
      var rid := s.facturas[fid].reparacionId;
      r.reparaciones[rid] == s.reparaciones[rid].(estado := EstadoFacturada)
    ensures forall k :: k in s.facturas && k != fid ==> r.facturas[k] == s.facturas[k]
    ensures forall k :: k in s.reparaciones && (fid !in s.facturas || k != s.facturas[fid].reparacionId) ==>
      r.reparaciones[k] == s.reparaciones[k]
    ensures Valid(s) ==> Valid(r)
  {
    if fid !in s.facturas then s
    else
      var f := s.facturas[fid];
      var s1 := s.(facturas := s.facturas[fid := f.(esPresupuesto := Some(Confirmada))]);
      if f.reparacionId in s.reparaciones then
        s1.(reparaciones := s.reparaciones[f.reparacionId := s.reparaciones[f.reparacionId].(estado := EstadoFacturada)])
      else s1
  }

  /** Confirming twice is confirming once; re-confirming is not an error. */
  lemma ConfirmIdempotent(s: Store, fid: nat)
    ensures FacturaConfirmar(FacturaConfirmar(s, fid), fid) == FacturaConfirmar(s, fid)
  {
    var s1 := FacturaConfirmar(s, fid);
    if fid in s.facturas {
      var rid := s.facturas[fid].reparacionId;
      assert s1.facturas[fid := s1.facturas[fid].(esPresupuesto := Some(Confirmada))] == s1.facturas;
      if rid in s.reparaciones {
        assert s1.reparaciones[rid := s1.reparaciones[rid].(estado := EstadoFacturada)] == s1.reparaciones;
      }
    }
  }

  /** A view after confirmation keeps the factura confirmed: only the discount and total are rewritten. */
  lemma ViewKeepsConfirmation(s: Store, fid: nat, today: int)
    requires Valid(s) && fid in s.facturas
    ensures var s1 := FacturaConfirmar(s, fid);
      var s2 := FacturaView(s1, s.facturas[fid].reparacionId, today).0;
      fid in s2.facturas && s2.facturas[fid].esPresupuesto == Some(Confirmada)
  {
    var s1 := FacturaConfirmar(s, fid);
    ViewFrame(s1, s.facturas[fid].reparacionId, today);
  }
}

=== FILE: ledger.dfy ===
/**
 * Dated amounts and their sums over a window of days: the
 * `COALESCE(SUM(x), 0) ... WHERE fecha BETWEEN ? AND ?` queries of the
 * dashboard, over a table keyed by row id.
 */
module Ledger {
  /** One row as the sum sees it: its day and its amount. */
  datatype Entry = Entry(fecha: int, amount: real)

  /** The row is in the inclusive window [from, to]. */
  predicate InWindow(e: Entry, from: int, to: int) {
    from <= e.fecha <= to
  }

  /** What row `k` contributes to a window sum. */
  function Contribution(l: map<nat, Entry>, k: nat, from: int, to: int): real {
    if k in l && InWindow(l[k], from, to) then l[k].amount else 0.0
  }

  /** The sum over the rows with id below `n` whose day lies in [from, to]; 0 for none. */
  function WindowSum(l: map<nat, Entry>, from: int, to: int, n: nat): real {
    if n == 0 then 0.0 else WindowSum(l, from, to, n - 1) + Contribution(l, n - 1, from, to)
  }

  /** An empty window (from > to) sums to 0. */
  lemma {:induction false} WindowEmpty(l: map<nat, Entry>, from: int, to: int, n: nat)
    requires from > to
    ensures WindowSum(l, from, to, n) == 0.0
  {
    if n > 0 {
      WindowEmpty(l, from, to, n - 1);
    }
  }

  /** With no negative amounts a window sum is never negative. */
  lemma {:induction false} WindowNonNegative(l: map<nat, Entry>, from: int, to: int, n: nat)
    requires forall k :: k in l ==> l[k].amount >= 0.0
    ensures WindowSum(l, from, to, n) >= 0.0
  {
    if n > 0 {
      WindowNonNegative(l, from, to, n - 1);
    }
  }

  /** Splitting the window at `mid` splits the sum: [from, to] = [from, mid] + [mid + 1, to]. */
  lemma {:induction false} WindowSplit(l: map<nat, Entry>, from: int, mid: int, to: int, n: nat)
    requires from <= mid < to
    ensures WindowSum(l, from, to, n) == WindowSum(l, from, mid, n) + WindowSum(l, mid + 1, to, n)
  {
    if n > 0 {
      WindowSplit(l, from, mid, to, n - 1);
    }
  }

  /** Only the rows below `n` that lie in the window matter. */
  lemma {:induction false} WindowFrame(l1: map<nat, Entry>, l2: map<nat, Entry>, from: int, to: int, n: nat)
    requires forall k: nat :: k < n ==> Contribution(l1, k, from, to) == Contribution(l2, k, from, to)
    ensures WindowSum(l1, from, to, n) == WindowSum(l2, from, to, n)
  {
    if n > 0 {
      WindowFrame(l1, l2, from, to, n - 1);
    }
  }

  /** Rows at or above `n` are not summed. */
  lemma {:induction false} WindowBeyond(l: map<nat, Entry>, from: int, to: int, n: nat, m: nat)
    requires n <= m && forall k :: n <= k < m ==> k !in l
    ensures WindowSum(l, from, to, m) == WindowSum(l, from, to, n)
  {
    if m > n {
      WindowBeyond(l, from, to, n, m - 1);
    }
  }

  /**
   * Putting entry `e` at id `k < n` changes the sum by what `e` contributes
   * minus what the old row at `k` contributed.
   */
  lemma {:induction false} WindowUpdate(l: map<nat, Entry>, k: nat, e: Entry, from: int, to: int, n: nat)
    requires k < n
    ensures WindowSum(l[k := e], from, to, n)
            == WindowSum(l, from, to, n) - Contribution(l, k, from, to) + (if InWindow(e, from, to) then e.amount else 0.0)
  {
    if n - 1 == k {
      WindowFrame(l[k := e], l, from, to, k);
    } else {
      WindowUpdate(l, k, e, from, to, n - 1);
    }
  }

  /** Removing row `k < n` takes away exactly what it contributed. */
  lemma {:induction false} WindowRemove(l: map<nat, Entry>, k: nat, from: int, to: int, n: nat)
    requires k < n
    ensures WindowSum(l - {k}, from, to, n) == WindowSum(l, from, to, n) - Contribution(l, k, from, to)
  {
    if n - 1 == k {
      WindowFrame(l - {k}, l, from, to, k);
    } else {
      WindowRemove(l, k, from, to, n - 1);
    }
  }

  /** The sums of the single days from, from + 1, ..., from + days - 1, one per day. */
  function DaySums(l: map<nat, Entry>, from: int, days: nat, n: nat): (r: seq<real>)
    ensures |r| == days
    ensures forall i :: 0 <= i < days ==> r[i] == WindowSum(l, from + i, from + i, n)
  {
    if days == 0 then [] else DaySums(l, from, days - 1, n) + [WindowSum(l, from + days - 1, from + days - 1, n)]
  }

  function Total(xs: seq<real>): real {
    if |xs| == 0 then 0.0 else Total(xs[..|xs| - 1]) + xs[|xs| - 1]
  }

  /** The per-day sums of a run of days add up to the sum over the whole run. */
  lemma {:induction false} DaySumsTotal(l: map<nat, Entry>, from: int, days: nat, n: nat)
    ensures Total(DaySums(l, from, days, n)) == WindowSum(l, from, from + days - 1, n)
  {
    if days == 0 {
      WindowEmpty(l, from, from - 1, n);
    } else {
      DaySumsLast(l, from, days, n);
      DaySumsTotal(l, from, days - 1, n);
      if days == 1 {
        WindowEmpty(l, from, from - 1, n);
      } else {
        WindowSplit(l, from, from + days - 2, from + days - 1, n);
      }
    }
  }

  /** The total of a run of day sums is the total of all but the last day, plus the last day. */
  lemma DaySumsLast(l: map<nat, Entry>, from: int, days: nat, n: nat)
    requires days > 0
    ensures Total(DaySums(l, from, days, n))
            == Total(DaySums(l, from, days - 1, n)) + WindowSum(l, from + days - 1, from + days - 1, n)
  {
    var r := DaySums(l, from, days, n);
    assert r[..days - 1] == DaySums(l, from, days - 1, n);
  }
}

=== FILE: mutations.dfy ===
/**
 * Store mutations whose interest is what they leave alone: deleting a job,
 * deleting a client, adding a job line, and the insert-or-ignore of a
 * concept suggestion.
 */
module Mutations {
  import opened Wrappers
  import opened Text
  import opened Format
  import opened Records
  import opened Pricing
  import opened Invoice

  /** The type a line gets when the form leaves it empty. */
  const DefaultTipo: string := "SERVICIO"

  /**
   * `reparacion_eliminar`: an unknown job changes nothing; otherwise the job
   * row and every line of the job are deleted. Nothing cascades to the
   * images or the factura.
   */
  function ReparacionEliminar(s: Store, rid: nat): (r: Store)
    ensures rid !in s.reparaciones ==> r == s
    ensures rid !in r.reparaciones
    ensures forall k :: k in r.reparaciones <==> k in s.reparaciones && k != rid
    ensures forall k :: k in r.reparaciones ==> r.reparaciones[k] == s.reparaciones[k]
    ensures forall k :: k in r.items ==> k in s.items && r.items[k] == s.items[k]
    ensures rid in s.reparaciones ==> forall k :: k in r.items ==> r.items[k].reparacionId != rid
    ensures forall k :: k in s.items && s.items[k].reparacionId != rid ==> k in r.items
    ensures r.(reparaciones := s.reparaciones, items := s.items) == s
  {
    if rid !in s.reparaciones then s
    else
      s.(reparaciones := map k | k in s.reparaciones && k != rid :: s.reparaciones[k],
         items := map k | k in s.items && s.items[k].reparacionId != rid :: s.items[k])
  }

  /** After the delete the job has no lines, and every other job keeps exactly its lines. */
  lemma EliminarItems(s: Store, rid: nat, other: nat)
    requires rid in s.reparaciones
    ensures ItemsOf(ReparacionEliminar(s, rid), rid) == []
    ensures other != rid ==> ItemsOf(ReparacionEliminar(s, rid), other) == ItemsOf(s, other)
  {
    var r := ReparacionEliminar(s, rid);
    ItemsUpToEmpty(r.items, rid, r.nextId);
    if other != rid {
      ItemsUpToFrame(r.items, s.items, other, s.nextId);
    }
  }

  /**
   * The job's factura (and every other one) survives the delete: the lookup
   * of any job finds the same factura as before, and a valid store stays valid.
   */
  lemma EliminarKeepsFacturas(s: Store, rid: nat, job: nat)
    ensures var r := ReparacionEliminar(s, rid);
      r.facturas == s.facturas && r.imagenes == s.imagenes && FindFactura(r, job) == FindFactura(s, job)
    ensures Valid(s) ==> Valid(ReparacionEliminar(s, rid))
  {
  }

  /** Once its job is gone the invoice view of it redirects, and the detail view too. */
  lemma EliminarThenViews(s: Store, rid: nat, today: int)
    ensures var r := ReparacionEliminar(s, rid);
      FacturaView(r, rid, today) == (r, RedirectToClientes) && ReparacionDetalle(r, rid) == DetailToClientes
  {
  }

  /** `cliente_eliminar`: only the client row goes; its vehicles stay, pointing at nothing. */
  function ClienteEliminar(s: Store, cid: nat): (r: Store)
    ensures cid !in r.clientes
    ensures forall k :: k in r.clientes <==> k in s.clientes && k != cid
    ensures forall k :: k in r.clientes ==> r.clientes[k] == s.clientes[k]
    ensures r.(clientes := s.clientes) == s
    ensures Valid(s) ==> Valid(r)
  {
    s.(clientes := map k | k in s.clientes && k != cid :: s.clientes[k])
  }

  /**
   * A job of a deleted client's vehicle keeps its detail page, but its
   * invoice view writes the factura (creating or recomputing it) and then
   * fails on the missing client row.
   */
  lemma ClienteEliminarOrphans(s: Store, cid: nat, rid: nat, today: int)
    requires Reachable(s, rid) && s.vehiculos[s.reparaciones[rid].vehiculoId].clienteId == cid
    ensures var r := ClienteEliminar(s, cid);
      && ReparacionDetalle(r, rid) == ReparacionDetalle(s, rid)
      && FacturaView(r, rid, today) == (SyncFactura(r, rid, today).0, Crash)
  {
  }

  /**
   * The `INSERT OR IGNORE INTO item_conceptos`: a name already stored is
   * ignored (the column is unique); a new one gets a fresh id.
   */
  function ConceptoInsertOrIgnore(s: Store, nombre: string): (r: Store)
    ensures nombre in r.conceptos.Values
    ensures nombre in s.conceptos.Values ==> r == s
    ensures r.(conceptos := s.conceptos, nextId := s.nextId) == s
    ensures KeysBelow(s.conceptos, s.nextId) ==>
      forall k :: k in s.conceptos ==> k in r.conceptos && r.conceptos[k] == s.conceptos[k]
  {
    if nombre in s.conceptos.Values then s
    else
      var m := s.conceptos[s.nextId := nombre];
      assert m[s.nextId] == nombre;
      s.(conceptos := m, nextId := s.nextId + 1)
  }

  /** In a valid store the suggestions afterwards are the ones before plus the name, and stay unique. */
  lemma ConceptoValues(s: Store, nombre: string)
    requires Valid(s)
    ensures ConceptoInsertOrIgnore(s, nombre).conceptos.Values == s.conceptos.Values + {nombre}
    ensures Valid(ConceptoInsertOrIgnore(s, nombre))
  {
    var r := ConceptoInsertOrIgnore(s, nombre);
    if nombre !in s.conceptos.Values {
      assert s.nextId !in s.conceptos;
      forall v | v in r.conceptos.Values
        ensures v in s.conceptos.Values + {nombre}
      {
        var k :| k in r.conceptos && r.conceptos[k] == v;
        if k != s.nextId {
          assert s.conceptos[k] == v;
        }
      }
      forall v | v in s.conceptos.Values + {nombre}
        ensures v in r.conceptos.Values
      {
        if v != nombre {
          var k :| k in s.conceptos && s.conceptos[k] == v;
          assert r.conceptos[k] == v;
        }
      }
    }
  }

  /** Inserting the same name twice is inserting it once. */
  lemma ConceptoIdempotent(s: Store, nombre: string)
    ensures var r := ConceptoInsertOrIgnore(s, nombre); ConceptoInsertOrIgnore(r, nombre) == r
  {
  }

  /** The form's line: `concepto.strip().upper()`, empty amounts as 0, an empty type as "SERVICIO". */
  function NewItem(rid: nat, concepto: string, cantidad: Option<real>, precio: Option<real>,
                   descuento: Option<real>, tipo: Option<string>): (it: Item)
    ensures it.reparacionId == rid
    ensures it.cantidad == Some(Cantidad(it)) && Cantidad(it) == cantidad.GetOr(0.0)
    ensures it.precioUnitario == Some(Precio(it)) && Precio(it) == precio.GetOr(0.0)
    ensures it.descuento == Some(Descuento(it)) && Descuento(it) == descuento.GetOr(0.0)
    ensures it.tipo == if tipo.Some? && tipo.value != "" then tipo.value else DefaultTipo
  {
    var t := tipo.GetOr("");
    Item(rid, Upper(Strip(concepto)), Some(cantidad.GetOr(0.0)), Some(precio.GetOr(0.0)),
         Some(descuento.GetOr(0.0)), if t == "" then DefaultTipo else t)
  }

  /** The stored concept is the upper-case, stripped form of the typed one. */
  lemma NewItemConcept(rid: nat, concepto: string, cantidad: Option<real>, precio: Option<real>,
                       descuento: Option<real>, tipo: Option<string>)
    ensures NewItem(rid, concepto, cantidad, precio, descuento, tipo).concepto == FormatearMayus(Some(concepto))
  {
  }

  /**
   * `item_nuevo` (the form post): an unknown job changes nothing; otherwise
   * the line is stored under a fresh id and its concept is offered as a
   * suggestion from then on.
   */
  function ItemNuevo(s: Store, rid: nat, concepto: string, cantidad: Option<real>, precio: Option<real>,
                     descuento: Option<real>, tipo: Option<string>): (r: Store)
    ensures rid !in s.reparaciones ==> r == s
    ensures rid in s.reparaciones ==>
      && s.nextId in r.items
      && r.items[s.nextId] == NewItem(rid, concepto, cantidad, precio, descuento, tipo)
      && r.items[s.nextId].concepto in r.conceptos.Values
    ensures r.(items := s.items, conceptos := s.conceptos, nextId := s.nextId) == s
  {
    if rid !in s.reparaciones then s
    else
      var it := NewItem(rid, concepto, cantidad, precio, descuento, tipo);
      ConceptoInsertOrIgnore(WithLine(s, it), it.concepto)
  }

  /** No item id lies in [n, m): the scan up to m reads what the scan up to n reads. */
  lemma {:induction false} ItemsUpToGap(items: map<nat, Item>, rid: nat, n: nat, m: nat)
    requires n <= m && forall k :: n <= k < m ==> k !in items
    ensures ItemsUpTo(items, rid, m) == ItemsUpTo(items, rid, n)
  {
    if m > n {
      ItemsUpToGap(items, rid, n, m - 1);
    }
  }

  /** A line stored under the fresh id `n` comes last among its job's lines and nowhere else. */
  lemma ItemsUpToFresh(items: map<nat, Item>, n: nat, it: Item, rid: nat)
    requires KeysBelow(items, n)
    ensures ItemsUpTo(items[n := it], rid, n + 1)
            == ItemsUpTo(items, rid, n) + (if it.reparacionId == rid then [it] else [])
  {
    ItemsUpToFrame(items[n := it], items, rid, n);
  }

  /** The store after a new line, before the suggestion is recorded. */
  function WithLine(s: Store, it: Item): Store {
    s.(items := s.items[s.nextId := it], nextId := s.nextId + 1)
  }

  /** A new line keeps a valid store valid, suggestion included. */
  lemma ItemNuevoValid(s: Store, rid: nat, concepto: string, cantidad: Option<real>, precio: Option<real>,
                       descuento: Option<real>, tipo: Option<string>)
    requires Valid(s)
    ensures Valid(ItemNuevo(s, rid, concepto, cantidad, precio, descuento, tipo))
  {
    if rid in s.reparaciones {
      var it := NewItem(rid, concepto, cantidad, precio, descuento, tipo);
      var s1 := WithLine(s, it);
      assert Valid(s1);
      ConceptoValues(s1, it.concepto);
    }
  }

  /** Storing line `it` and then a suggestion appends `it` to its own job's lines and to no other job's. */
  lemma LinesAfterInsert(s: Store, it: Item, nombre: string, job: nat)
    requires Valid(s)
    ensures ItemsOf(ConceptoInsertOrIgnore(WithLine(s, it), nombre), job)
            == ItemsOf(s, job) + (if it.reparacionId == job then [it] else [])
  {
    var n := s.nextId;
    var s1 := WithLine(s, it);
    var r := ConceptoInsertOrIgnore(s1, nombre);
    assert r.items == s1.items && n + 1 <= r.nextId;
    ItemsUpToGap(s1.items, job, n + 1, r.nextId);
    ItemsUpToFresh(s.items, n, it, job);
  }

  /** The new line is the job's last line; every other job keeps its lines. */
  lemma ItemNuevoLines(s: Store, rid: nat, concepto: string, cantidad: Option<real>, precio: Option<real>,
                       descuento: Option<real>, tipo: Option<string>, job: nat)
    requires Valid(s) && rid in s.reparaciones
    ensures var r := ItemNuevo(s, rid, concepto, cantidad, precio, descuento, tipo);
      var it := NewItem(rid, concepto, cantidad, precio, descuento, tipo);
      ItemsOf(r, job) == ItemsOf(s, job) + (if job == rid then [it] else [])
  {
    var it := NewItem(rid, concepto, cantidad, precio, descuento, tipo);
    LinesAfterInsert(s, it, it.concepto, job);
  }

  /** The job's total grows by exactly the new line's total. */
  lemma ItemNuevoTotal(s: Store, rid: nat, concepto: string, cantidad: Option<real>, precio: Option<real>,
                       descuento: Option<real>, tipo: Option<string>)
    requires Valid(s) && rid in s.reparaciones
    ensures var r := ItemNuevo(s, rid, concepto, cantidad, precio, descuento, tipo);
      var it := NewItem(rid, concepto, cantidad, precio, descuento, tipo);
      BaseTotal(ItemsOf(r, rid)) == BaseTotal(ItemsOf(s, rid)) + LineTotal(it)
  {
    var it := NewItem(rid, concepto, cantidad, precio, descuento, tipo);
    ItemNuevoLines(s, rid, concepto, cantidad, precio, descuento, tipo, rid);
    BaseTotalAppend(ItemsOf(s, rid), [it]);
    assert BaseTotal([it]) == LineTotal(it) by {
      assert [it][1..] == [];
    }
  }
}

=== FILE: phone.dfy ===
/** Phone helpers: `normalizar_telefono` and the WhatsApp number of the invoice view. */
module Phone {
  import opened Wrappers
  import opened Text

  /**
   * `normalizar_telefono`: absent or empty input gives no phone at all;
   * anything else gives its digits, in order (possibly none).
   */
  function NormalizarTelefono(raw: Option<string>): (r: Option<string>)
    ensures r.None? <==> raw.None? || raw.value == ""
    ensures r.Some? ==> AllDigits(r.value) && r.value == Digits(raw.value)
  {
    if raw.None? || raw.value == "" then None else Some(Digits(raw.value))
  }

  /** Normalizing a normalized phone changes nothing, provided the input held a digit. */
  lemma NormalizarIdempotent(raw: Option<string>)
    requires raw.Some? && Digits(raw.value) != ""
    ensures NormalizarTelefono(NormalizarTelefono(raw)) == NormalizarTelefono(raw)
  {
    DigitsIdempotent(raw.value);
  }

  /** Without a digit the function is not idempotent: "abc" gives "", and "" gives no phone. */
  lemma NormalizarNotIdempotentWithoutDigits()
    ensures NormalizarTelefono(Some("abc")) == Some("")
    ensures NormalizarTelefono(NormalizarTelefono(Some("abc"))) == None
  {
    assert Digits("abc") == "";
  }

  /** Argentina's country calling code. */
  const CountryCode: string := "54"

  /** The digits with at most one leading "0" (the trunk prefix) removed. */
  function DropTrunkZero(d: string): (r: string)
    ensures r == d || (d == "0" + r)
  {
    if |d| > 0 && d[0] == '0' then d[1..] else d
  }

  /**
   * The WhatsApp number derived from the client's phone: its digits, without
   * one leading "0", behind the country code unless they already start with it.
   */
  function WhatsAppPhone(telefono: Option<string>): (r: string)
    ensures r == "" <==> Digits(telefono.GetOr("")) == ""
    ensures r != "" ==> StartsWith(r, CountryCode) && AllDigits(r)
    ensures r != "" ==> var local := DropTrunkZero(Digits(telefono.GetOr("")));
                        (r == local || r == CountryCode + local)
                        && (StartsWith(local, CountryCode) ==> r == local)
  {
    var d := Digits(telefono.GetOr(""));
    if d == "" then ""
    else
      var local := DropTrunkZero(d);
      if StartsWith(local, CountryCode) then local else CountryCode + local
  }

  /** Deriving the WhatsApp number of a WhatsApp number changes nothing. */
  lemma WhatsAppIdempotent(telefono: Option<string>)
    ensures WhatsAppPhone(Some(WhatsAppPhone(telefono))) == WhatsAppPhone(telefono)
  {
    var r := WhatsAppPhone(telefono);
    DigitsOfAllDigits(r);
    if r != "" {
      assert r[0] == '5';
    }
  }

  /** A local number written with its trunk "0" gets the country code in place of the "0". */
  lemma WhatsAppTrunkNumber(rest: string)
    requires AllDigits(rest) && !StartsWith(rest, CountryCode)
    ensures WhatsAppPhone(Some("0" + rest)) == CountryCode + rest
  {
    DigitsOfAllDigits("0" + rest);
    assert ("0" + rest)[1..] == rest;
  }

  /** A number that already carries the country code, and no trunk "0", is kept as it is. */
  lemma WhatsAppInternationalNumber(tel: string)
    requires AllDigits(tel) && StartsWith(tel, CountryCode)
    ensures WhatsAppPhone(Some(tel)) == tel
  {
    DigitsOfAllDigits(tel);
    assert tel[0] == '5';
  }
}

/** Worked examples on Buenos Aires numbers in the usual spellings. */
module PhoneExamples {
  import opened Wrappers
  import opened Text
  import opened Phone

  /**
   * How the example number falls apart: prefix and local number, area code
   * and groups, and how their digits go back together.
   */
  lemma NumberPieces()
    ensures "+54 9 " + "11-2345-6789" == "+54 9 11-2345-6789"
    ensures "11-" + "2345-6789" == "11-2345-6789" && "2345-" + "6789" == "2345-6789"
    ensures "549" + "1123456789" == "5491123456789"
    ensures "11" + "23456789" == "1123456789" && "2345" + "6789" == "23456789"
    ensures "2345" + "-" == "2345-" && "11" + "-" == "11-"
  {
  }

  lemma DigitsOfPrefix()
    ensures Digits("+54 9 ") == "549"
  {
    DigitsAppend("+54 ", "9 ");
  }

  /** A digit group followed by a dash keeps just the group. */
  lemma DigitsOfDashed(d: string)
    requires AllDigits(d)
    ensures Digits(d + "-") == d
  {
    DigitsAppend(d, "-");
    DigitsOfAllDigits(d);
    DigitsOfChar('-');
    assert "-" == ['-'];
    assert d + "" == d;
  }

  /** Two digit groups joined by a dash lose only the dash. */
  lemma DigitsOfDashedPair(d: string, e: string)
    requires AllDigits(d) && AllDigits(e)
    ensures Digits(d + "-" + e) == d + e
  {
    DigitsAppend(d + "-", e);
    DigitsOfDashed(d);
    DigitsOfAllDigits(e);
  }

  lemma DigitsOfDashedGroup()
    ensures Digits("2345-") == "2345" && Digits("11-") == "11"
  {
    NumberPieces();
    assert AllDigits("2345") && AllDigits("11");
    DigitsOfDashed("2345");
    DigitsOfDashed("11");
  }

  lemma DigitsOfGroups()
    ensures Digits("2345-6789") == "23456789"
  {
    NumberPieces();
    assert AllDigits("2345") && AllDigits("6789");
    DigitsOfDashedPair("2345", "6789");
  }

  lemma DigitsOfLocal()
    ensures Digits("11-2345-6789") == "1123456789"
  {
    NumberPieces();
    DigitsAppend("11-", "2345-6789");
    DigitsOfDashedGroup();
    DigitsOfGroups();
  }

  /** "+54 9 11-2345-6789" normalizes to its 13 digits, in order. */
  lemma NormalizarExample()
    ensures NormalizarTelefono(Some("+54 9 11-2345-6789")) == Some("5491123456789")
  {
    NumberPieces();
    DigitsAppend("+54 9 ", "11-2345-6789");
    DigitsOfPrefix();
    DigitsOfLocal();
  }

  /** The local number without its trunk "0" is all digits and lacks the country code. */
  lemma LocalNumber()
    ensures AllDigits("1123456789") && !StartsWith("1123456789", CountryCode)
  {
    assert "1123456789"[..2] == "11";
  }

  /** "01123456789": the trunk "0" goes and the country code comes: "541123456789". */
  lemma WhatsAppExampleTrunk()
    ensures WhatsAppPhone(Some("01123456789")) == "541123456789"
  {
    var rest := "1123456789";
    LocalNumber();
    WhatsAppTrunkNumber(rest);
    assert "0" + rest == "01123456789";
    assert CountryCode + rest == "541123456789";
  }

  /** "5491123456789" already carries the country code and is kept as it is. */
  lemma WhatsAppExampleInternational()
    ensures WhatsAppPhone(Some("5491123456789")) == "5491123456789"
  {
    assert AllDigits("5491123456789");
    assert "5491123456789"[..2] == CountryCode;
    WhatsAppInternationalNumber("5491123456789");
  }

  /** A lone "0" is still a digit: the result is the bare country code, not "". */
  lemma WhatsAppExampleZero()
    ensures WhatsAppPhone(Some("0")) == CountryCode
    ensures WhatsAppPhone(None) == ""
  {
    DigitsOfAllDigits("0");
    assert DropTrunkZero("0") == "";
  }
}

=== FILE: pricing.dfy ===
/**
 * Line and job totals: the item loops of the detail and invoice views.
 * Money and percentages are exact reals.
 */
module Pricing {
  import opened Wrappers
  import opened Records

  /** `it[3] or 0`, `it[4] or 0`, and a NULL discount read as 0. */
  function Cantidad(it: Item): real { it.cantidad.GetOr(0.0) }
  function Precio(it: Item): real { it.precioUnitario.GetOr(0.0) }
  function Descuento(it: Item): real { it.descuento.GetOr(0.0) }

  /** The multiplier a percent discount leaves: `1 - d / 100`. */
  function DiscountFactor(d: real): real {
    1.0 - d / 100.0
  }

  /** The total after a global discount of `d` percent on `base`. */
  function Discounted(base: real, d: real): real {
    base * DiscountFactor(d)
  }

  /** No discount keeps the amount; a 100% discount zeroes it. */
  lemma DiscountedExtremes(base: real)
    ensures Discounted(base, 0.0) == base && Discounted(base, 100.0) == 0.0
  {
  }

  /** `cantidad * precio * (1 - descuento / 100.0)`. */
  function LineTotal(it: Item): real {
    Discounted(Cantidad(it) * Precio(it), Descuento(it))
  }

  /** The sum of the line totals: the invoice's `base_total`, the detail view's `total`. */
  function BaseTotal(items: seq<Item>): real {
    if |items| == 0 then 0.0 else LineTotal(items[0]) + BaseTotal(items[1..])
  }

  /** The sum over the lines before discounts. */
  function GrossTotal(items: seq<Item>): real {
    if |items| == 0 then 0.0 else Cantidad(items[0]) * Precio(items[0]) + GrossTotal(items[1..])
  }

  /** Totals add up over a split of the lines. */
  lemma {:induction false} BaseTotalAppend(a: seq<Item>, b: seq<Item>)
    ensures BaseTotal(a + b) == BaseTotal(a) + BaseTotal(b)
  {
    if |a| == 0 {
      assert a + b == b;
    } else {
      assert (a + b)[1..] == a[1..] + b;
      BaseTotalAppend(a[1..], b);
    }
  }

  /**
   * The view loop: `total = 0; for it in items: total += subtotal`. It
   * accumulates left to right and agrees with BaseTotal.
   */
  method SumLineTotals(items: seq<Item>) returns (total: real)
    ensures total == BaseTotal(items)
  {
    total := 0.0;
    var i := 0;
    while i < |items|
      invariant 0 <= i <= |items|
      invariant total == BaseTotal(items[..i])
    {
      BaseTotalAppend(items[..i], [items[i]]);
      assert items[..i + 1] == items[..i] + [items[i]];
      total := total + LineTotal(items[i]);
      i := i + 1;
    }
    assert items[..i] == items;
  }

  /**
   * A line with non-negative amounts and a discount between 0 and 100. The
   * item form does not enforce this (it stores any number it parses); the
   * bounds below hold for the lines that meet it.
   */
  predicate WellFormedLine(it: Item) {
    Cantidad(it) >= 0.0 && Precio(it) >= 0.0 && 0.0 <= Descuento(it) <= 100.0
  }

  /** A well-formed line is worth between nothing and its undiscounted amount. */
  lemma LineTotalBounds(it: Item)
    requires WellFormedLine(it)
    ensures 0.0 <= LineTotal(it) <= Cantidad(it) * Precio(it)
  {
    var g := Cantidad(it) * Precio(it);
    var f := DiscountFactor(Descuento(it));
    assert g >= 0.0;
    assert 0.0 <= f <= 1.0;
    assert g * f <= g * 1.0;
  }

  /** A 100% line discount makes the line free; no discount leaves it at quantity times price. */
  lemma LineTotalExtremes(it: Item)
    ensures Descuento(it) == 100.0 ==> LineTotal(it) == 0.0
    ensures Descuento(it) == 0.0 ==> LineTotal(it) == Cantidad(it) * Precio(it)
  {
  }

  /** With well-formed lines the job total lies between zero and the undiscounted total. */
  lemma {:induction false} BaseTotalBounds(items: seq<Item>)
    requires forall i :: 0 <= i < |items| ==> WellFormedLine(items[i])
    ensures 0.0 <= BaseTotal(items) <= GrossTotal(items)
  {
    if |items| > 0 {
      LineTotalBounds(items[0]);
      BaseTotalBounds(items[1..]);
    }
  }
}

=== FILE: records.dfy ===
/**
 * The shop's tables as an immutable in-memory store: one map per table from
 * row id to record. Foreign keys are plain ids and may dangle, as they do in
 * the database (nothing cascades). All ids are drawn from one counter
 * `nextId`; a scan of ids 0..nextId-1 is the rowid order in which SQLite
 * returns the rows of a table without an index.
 */
module Records {
  import opened Wrappers

  datatype Cliente = Cliente(
    nombre: string, apellido: string, telefono: Option<string>, email: string,
    direccion: string, notas: string, documento: string, razonSocial: string)

  datatype Vehiculo = Vehiculo(
    clienteId: nat, patente: string, marca: string, modelo: string,
    anio: string, km: string, notas: string)

  /** A repair job; `fecha` is a day number. */
  datatype Reparacion = Reparacion(vehiculoId: nat, fecha: int, descripcion: string, notas: string, estado: string)

  /** A job line: quantity, unit price and percent discount are nullable columns. */
  datatype Item = Item(
    reparacionId: nat, concepto: string, cantidad: Option<real>,
    precioUnitario: Option<real>, descuento: Option<real>, tipo: string)

  datatype Imagen = Imagen(reparacionId: nat, filename: string, descripcion: string)

  /**
   * The quote/invoice of a job. `esPresupuesto` is 1 for a draft quote and 0
   * for a confirmed invoice; `total` is a cache rewritten on every view.
   */
  datatype Factura = Factura(
    reparacionId: nat, fecha: int, total: real,
    descuentoGlobal: Option<real>, esPresupuesto: Option<int>)

  datatype Gasto = Gasto(fecha: int, categoria: string, descripcion: string, monto: real)

  datatype Store = Store(
    clientes: map<nat, Cliente>,
    vehiculos: map<nat, Vehiculo>,
    reparaciones: map<nat, Reparacion>,
    items: map<nat, Item>,
    imagenes: map<nat, Imagen>,
    facturas: map<nat, Factura>,
    gastos: map<nat, Gasto>,
    conceptos: map<nat, string>,
    nextId: nat)

  predicate KeysBelow<T>(m: map<nat, T>, n: nat) {
    forall k :: k in m ==> k < n
  }

  /**
   * What the database keeps true across the modelled operations: every id is
   * below the counter, a job has at most one factura (it is only ever created
   * when none is found), and suggestion names are unique (`nombre TEXT UNIQUE`).
   */
  predicate Valid(s: Store) {
    && KeysBelow(s.clientes, s.nextId)
    && KeysBelow(s.vehiculos, s.nextId)
    && KeysBelow(s.reparaciones, s.nextId)
    && KeysBelow(s.items, s.nextId)
    && KeysBelow(s.imagenes, s.nextId)
    && KeysBelow(s.facturas, s.nextId)
    && KeysBelow(s.gastos, s.nextId)
    && KeysBelow(s.conceptos, s.nextId)
    && (forall j, k :: j in s.facturas && k in s.facturas && s.facturas[j].reparacionId == s.facturas[k].reparacionId ==> j == k)
    && (forall j, k :: j in s.conceptos && k in s.conceptos && s.conceptos[j] == s.conceptos[k] ==> j == k)
  }

  /** `SELECT * FROM reparacion_items WHERE reparacion_id=?` over the ids below `n`, in id order. */
  function ItemsUpTo(items: map<nat, Item>, rid: nat, n: nat): (r: seq<Item>)
    ensures forall x :: x in r ==> x.reparacionId == rid && x in items.Values
    ensures forall k :: k < n && k in items && items[k].reparacionId == rid ==> items[k] in r
    ensures |r| <= n
  {
    if n == 0 then []
    else
      var k := n - 1;
      ItemsUpTo(items, rid, k) + (if k in items && items[k].reparacionId == rid then [items[k]] else [])
  }

  /** The ids below `n` of job `rid`'s lines: each one once, in increasing order. */
  function LineIds(items: map<nat, Item>, rid: nat, n: nat): (ids: seq<nat>)
    ensures forall i :: 0 <= i < |ids| ==> ids[i] < n && ids[i] in items && items[ids[i]].reparacionId == rid
    ensures forall k :: k < n && k in items && items[k].reparacionId == rid ==> k in ids
    ensures forall i, j :: 0 <= i < j < |ids| ==> ids[i] < ids[j]
  {
    if n == 0 then []
    else
      var k := n - 1;
      LineIds(items, rid, k) + (if k in items && items[k].reparacionId == rid then [k] else [])
  }

  /**
   * The scan returns exactly the job's lines, one entry per row, in id order:
   * its i-th entry is the row at the i-th matching id. Two rows with equal
   * contents are both returned.
   */
  lemma ItemsUpToRows(items: map<nat, Item>, rid: nat, n: nat)
    ensures |ItemsUpTo(items, rid, n)| == |LineIds(items, rid, n)|
    ensures forall i :: 0 <= i < |ItemsUpTo(items, rid, n)| ==>
      ItemsUpTo(items, rid, n)[i] == items[LineIds(items, rid, n)[i]]
  {
    RowsMatchAll(items, rid, n);
  }

  /** The row correspondence holds for every bound, by induction on the bound. */
  lemma {:induction false} RowsMatchAll(items: map<nat, Item>, rid: nat, n: nat)
    ensures RowsMatch(items, rid, n)
  {
    if n > 0 {
      RowsMatchAll(items, rid, n - 1);
      RowsStep(items, rid, n - 1);
    }
  }

  /** The scan below `n` lists, entry by entry, the rows at the job's line ids below `n`. */
  predicate RowsMatch(items: map<nat, Item>, rid: nat, n: nat) {
    && |ItemsUpTo(items, rid, n)| == |LineIds(items, rid, n)|
    && forall i :: 0 <= i < |ItemsUpTo(items, rid, n)| ==> ItemsUpTo(items, rid, n)[i] == items[LineIds(items, rid, n)[i]]
  }

  /** The row correspondence of the scan below `k` carries over to the scan below `k + 1`. */
  lemma RowsStep(items: map<nat, Item>, rid: nat, k: nat)
    requires RowsMatch(items, rid, k)
    ensures RowsMatch(items, rid, k + 1)
  {
    var r0, ids0 := ItemsUpTo(items, rid, k), LineIds(items, rid, k);
    var r, ids := ItemsUpTo(items, rid, k + 1), LineIds(items, rid, k + 1);
    if k in items && items[k].reparacionId == rid {
      assert r == r0 + [items[k]];
      assert ids == ids0 + [k];
      forall i | 0 <= i < |r|
        ensures r[i] == items[ids[i]]
      {
        if i < |r0| {
          assert r[i] == r0[i] && ids[i] == ids0[i];
        }
      }
    } else {
      assert r == r0 && ids == ids0;
    }
  }

  /** The items of job `rid`, as the detail and invoice views read them. */
  function ItemsOf(s: Store, rid: nat): seq<Item> {
    ItemsUpTo(s.items, rid, s.nextId)
  }

  /** Two item tables that agree on the lines of job `rid` below `n` give that job the same lines. */
  lemma {:induction false} ItemsUpToFrame(m1: map<nat, Item>, m2: map<nat, Item>, rid: nat, n: nat)
    requires forall k :: k < n ==> (k in m1 && m1[k].reparacionId == rid) == (k in m2 && m2[k].reparacionId == rid)
    requires forall k :: k < n && k in m1 && m1[k].reparacionId == rid ==> m1[k] == m2[k]
    ensures ItemsUpTo(m1, rid, n) == ItemsUpTo(m2, rid, n)
  {
    if n > 0 {
      ItemsUpToFrame(m1, m2, rid, n - 1);
    }
  }

  /** A job without lines below `n` reads as no lines at all. */
  lemma {:induction false} ItemsUpToEmpty(m: map<nat, Item>, rid: nat, n: nat)
    requires forall k :: k < n && k in m ==> m[k].reparacionId != rid
    ensures ItemsUpTo(m, rid, n) == []
  {
    if n > 0 {
      ItemsUpToEmpty(m, rid, n - 1);
    }
  }

  /**
   * `SELECT ... FROM facturas WHERE reparacion_id=?` followed by `fetchone()`:
   * the lowest id below `n` whose factura belongs to job `rid`.
   */
  function FacturaBelow(fs: map<nat, Factura>, rid: nat, n: nat): (r: Option<nat>)
    ensures r.Some? ==> r.value < n && r.value in fs && fs[r.value].reparacionId == rid
    ensures r.Some? ==> forall j :: j < r.value && j in fs ==> fs[j].reparacionId != rid
    ensures r.None? ==> forall j :: j < n && j in fs ==> fs[j].reparacionId != rid
  {
    if n == 0 then None
    else
      match FacturaBelow(fs, rid, n - 1)
      case Some(k) => Some(k)
      case None => if n - 1 in fs && fs[n - 1].reparacionId == rid then Some(n - 1) else None
  }

  function FindFactura(s: Store, rid: nat): Option<nat> {
    FacturaBelow(s.facturas, rid, s.nextId)
  }

  /** In a valid store a factura is the one the lookup of its job finds. */
  lemma FindFacturaOwn(s: Store, fid: nat)
    requires Valid(s) && fid in s.facturas
    ensures FindFactura(s, s.facturas[fid].reparacionId) == Some(fid)
  {
  }

  /** In a valid store the lookup finds nothing exactly when the job has no factura. */
  lemma FindFacturaNone(s: Store, rid: nat)
    requires Valid(s)
    ensures FindFactura(s, rid).None? <==> forall k :: k in s.facturas ==> s.facturas[k].reparacionId != rid
  {
  }

  /** The lookup only looks at which ids below `n` hold a factura of which job. */
  lemma {:induction false} FacturaBelowFrame(f1: map<nat, Factura>, f2: map<nat, Factura>, rid: nat, n: nat)
    requires forall k :: k < n ==> (k in f1 && f1[k].reparacionId == rid) == (k in f2 && f2[k].reparacionId == rid)
    ensures FacturaBelow(f1, rid, n) == FacturaBelow(f2, rid, n)
  {
    if n > 0 {
      FacturaBelowFrame(f1, f2, rid, n - 1);
    }
  }
}

=== FILE: text.dfy ===
/**
 * Character classes and the Python `str` operations the back office relies on:
 * `isdigit`, `isspace`, `upper`, `lower`, `strip`, `split()` and `" ".join`.
 * Characters are Unicode scalar values; classification and case mapping are
 * modelled for the Latin-1 range, which covers Spanish text.
 */
module Text {

  /** A decimal digit as Python's `\d` and `str.isdigit` see it, restricted to ASCII. */
  predicate IsDigit(c: char) {
    '0' <= c <= '9'
  }

  /** Python's `str.isspace` within Latin-1: space, TAB..CR, the four separators FS..US, NEL and NBSP. */
  predicate IsSpace(c: char) {
    c == ' ' || ('\t' <= c <= '\r') || ('\U{1C}' <= c <= '\U{1F}') || c == '\U{85}' || c == '\U{A0}'
  }

  /** A letter whose upper-case form is one Latin-1 character 32 code points below it. */
  predicate HasSimpleUpper(c: char) {
    ('a' <= c <= 'z') || ('\U{E0}' <= c <= '\U{FE}' && c != '\U{F7}')
  }

  /** A letter whose lower-case form is one Latin-1 character 32 code points above it. */
  predicate HasSimpleLower(c: char) {
    ('A' <= c <= 'Z') || ('\U{C0}' <= c <= '\U{DE}' && c != '\U{D7}')
  }

  function UpperChar(c: char): char {
    if HasSimpleUpper(c) then (c as int - 32) as char else c
  }

  function LowerChar(c: char): char {
    if HasSimpleLower(c) then (c as int + 32) as char else c
  }

  function Upper(s: string): string {
    seq(|s|, i requires 0 <= i < |s| => UpperChar(s[i]))
  }

  function Lower(s: string): string {
    seq(|s|, i requires 0 <= i < |s| => LowerChar(s[i]))
  }

  /** Case mapping never turns a space into a non-space or back, and settles after one step. */
  lemma CaseMapFacts(c: char)
    ensures IsSpace(UpperChar(c)) == IsSpace(c) && IsSpace(LowerChar(c)) == IsSpace(c)
    ensures UpperChar(UpperChar(c)) == UpperChar(c) && LowerChar(LowerChar(c)) == LowerChar(c)
    ensures UpperChar(LowerChar(c)) == UpperChar(c) && LowerChar(UpperChar(c)) == LowerChar(c)
  {
  }

  predicate AllDigits(s: string) {
    forall i :: 0 <= i < |s| ==> IsDigit(s[i])
  }

  predicate StartsWith(s: string, p: string) {
    |p| <= |s| && s[..|p|] == p
  }

  /** The digit characters of `s`, in order: `re.sub(r'\D', '', s)`. */
  function Digits(s: string): (r: string)
    ensures AllDigits(r)
    ensures |r| <= |s|
  {
    if |s| == 0 then ""
    else (if IsDigit(s[0]) then [s[0]] else "") + Digits(s[1..])
  }

  /** Digits loses no digit: each digit occurs in the result exactly as often as in `s`. */
  lemma {:induction false} DigitsCount(s: string, c: char)
    requires IsDigit(c)
    ensures multiset(Digits(s))[c] == multiset(s)[c]
  {
    if |s| > 0 {
      assert s == [s[0]] + s[1..];
      DigitsCount(s[1..], c);
    }
  }

  /** Digits distributes over concatenation: it filters each part independently. */
  lemma {:induction false} DigitsAppend(a: string, b: string)
    ensures Digits(a + b) == Digits(a) + Digits(b)
  {
    if |a| == 0 {
      assert a + b == b;
    } else {
      var h: string := if IsDigit(a[0]) then [a[0]] else "";
      assert (a + b)[0] == a[0];
      assert (a + b)[1..] == a[1..] + b;
      DigitsAppend(a[1..], b);
      assert Digits(a + b) == h + (Digits(a[1..]) + Digits(b));
      assert Digits(a) == h + Digits(a[1..]);
    }
  }

  /** On a single character Digits keeps it exactly when it is a digit. */
  lemma DigitsOfChar(c: char)
    ensures Digits([c]) == (if IsDigit(c) then [c] else "")
  {
  }

  /** A string of digits is left as it is. */
  lemma {:induction false} DigitsOfAllDigits(s: string)
    requires AllDigits(s)
    ensures Digits(s) == s
  {
    if |s| > 0 {
      DigitsOfAllDigits(s[1..]);
    }
  }

  /** Filtering twice is filtering once. */
  lemma DigitsIdempotent(s: string)
    ensures Digits(Digits(s)) == Digits(s)
  {
    DigitsOfAllDigits(Digits(s));
  }

  /** The index of the first non-whitespace character at or after `i`, or |s| if there is none. */
  function SkipSpaces(s: string, i: nat): (j: nat)
    requires i <= |s|
    ensures i <= j <= |s|
    ensures forall k :: i <= k < j ==> IsSpace(s[k])
    ensures j == |s| || !IsSpace(s[j])
    decreases |s| - i
  {
    if i < |s| && IsSpace(s[i]) then SkipSpaces(s, i + 1) else i
  }

  /** The index just past the last non-whitespace character in [lo, j), or `lo` if there is none. */
  function SkipSpacesBack(s: string, lo: nat, j: nat): (e: nat)
    requires lo <= j <= |s|
    ensures lo <= e <= j
    ensures forall k :: e <= k < j ==> IsSpace(s[k])
    ensures e == lo || !IsSpace(s[e - 1])
  {
    if j > lo && IsSpace(s[j - 1]) then SkipSpacesBack(s, lo, j - 1) else j
  }

  /** Neither starts nor ends with whitespace. */
  predicate Unpadded(s: string) {
    s == "" || (!IsSpace(s[0]) && !IsSpace(s[|s| - 1]))
  }

  /**
   * `r` is the slice of `s` starting at `i`, and everything of `s` before it
   * and after it is whitespace.
   */
  predicate SliceBetweenSpaces(s: string, r: string, i: nat) {
    && i + |r| <= |s| && r == s[i..i + |r|]
    && (forall k :: 0 <= k < i ==> IsSpace(s[k]))
    && (forall k :: i + |r| <= k < |s| ==> IsSpace(s[k]))
  }

  /**
   * `str.strip()`: the slice of `s` that is left once the whitespace is cut
   * off both ends; only whitespace is cut, and none is left at either end.
   */
  function Strip(s: string): (r: string)
    ensures Unpadded(r)
    ensures SliceBetweenSpaces(s, r, SkipSpaces(s, 0))
  {
    var i := SkipSpaces(s, 0);
    var e := SkipSpacesBack(s, i, |s|);
    assert e > i ==> s[i..e][0] == s[i] && s[i..e][e - i - 1] == s[e - 1];
    s[i..e]
  }

  /** Strip leaves an unpadded string alone, so it is idempotent. */
  lemma StripUnpadded(s: string)
    requires Unpadded(s)
    ensures Strip(s) == s
  {
  }

  lemma StripIdempotent(s: string)
    ensures Strip(Strip(s)) == Strip(s)
  {
    StripUnpadded(Strip(s));
  }

  /** A word of `str.split()`: non-empty and free of whitespace. */
  predicate IsWord(w: string) {
    |w| > 0 && forall i :: 0 <= i < |w| ==> !IsSpace(w[i])
  }

  /** Length of the leading run of non-whitespace characters. */
  function WordLen(s: string): (n: nat)
    ensures n <= |s|
    ensures forall i :: 0 <= i < n ==> !IsSpace(s[i])
    ensures n == |s| || IsSpace(s[n])
  {
    if |s| == 0 || IsSpace(s[0]) then 0 else 1 + WordLen(s[1..])
  }

  /** `str.split()` without arguments: the maximal runs of non-whitespace, in order. */
  function Words(s: string): (ws: seq<string>)
    ensures forall k :: 0 <= k < |ws| ==> IsWord(ws[k])
    decreases |s|
  {
    if |s| == 0 then []
    else if IsSpace(s[0]) then Words(s[1..])
    else
      var n := WordLen(s);
      [s[..n]] + Words(s[n..])
  }

  /** `" ".join(ws)`. */
  function JoinWords(ws: seq<string>): string {
    if |ws| == 0 then ""
    else if |ws| == 1 then ws[0]
    else ws[0] + " " + JoinWords(ws[1..])
  }

  predicate AllWords(ws: seq<string>) {
    forall k :: 0 <= k < |ws| ==> IsWord(ws[k])
  }

  /** Joining words gives a string that starts with the first word's first character and ends with the last word's last. */
  lemma {:induction false} JoinWordsEnds(ws: seq<string>)
    requires |ws| > 0 && AllWords(ws)
    ensures |JoinWords(ws)| > 0
    ensures JoinWords(ws)[0] == ws[0][0]
    ensures JoinWords(ws)[|JoinWords(ws)| - 1] == ws[|ws| - 1][|ws[|ws| - 1]| - 1]
  {
    AllWordsTail(ws);
    if |ws| > 1 {
      var tail := ws[1..];
      JoinWordsEnds(tail);
      var j := JoinWords(tail);
      var s := ws[0] + " " + j;
      assert JoinWords(ws) == s;
      assert s[0] == ws[0][0];
      assert s[|s| - 1] == j[|j| - 1];
      assert tail[|tail| - 1] == ws[|ws| - 1];
    }
  }

  /** Every whitespace character is a plain space with a non-whitespace character right after it. */
  predicate SingleSpaced(s: string) {
    forall i :: 0 <= i < |s| && IsSpace(s[i]) ==> s[i] == ' ' && i + 1 < |s| && !IsSpace(s[i + 1])
  }

  /** `" ".join` of words separates them by exactly one space. */
  lemma {:induction false} JoinWordsSingleSpaced(ws: seq<string>)
    requires AllWords(ws)
    ensures SingleSpaced(JoinWords(ws))
  {
    if |ws| > 1 {
      var w := ws[0];
      var tail := ws[1..];
      AllWordsTail(ws);
      JoinWordsSingleSpaced(tail);
      JoinWordsEnds(tail);
      var j := JoinWords(tail);
      var s := w + " " + j;
      assert JoinWords(ws) == s;
      assert forall i :: 0 <= i < |w| ==> s[i] == w[i];
      assert s[|w|] == ' ' && s[|w| + 1] == j[0];
      assert forall i :: |w| < i < |s| ==> s[i] == j[i - |w| - 1];
    }
  }

  lemma JoinWordsUnpadded(ws: seq<string>)
    requires AllWords(ws)
    ensures Unpadded(JoinWords(ws))
  {
    if |ws| > 0 {
      JoinWordsEnds(ws);
    }
  }

  lemma WordLenOfWord(w: string, rest: string)
    requires IsWord(w)
    requires rest == "" || IsSpace(rest[0])
    ensures WordLen(w + rest) == |w|
  {
    var s := w + rest;
    assert forall i :: 0 <= i < |w| ==> s[i] == w[i];
    assert rest != "" ==> s[|w|] == rest[0];
  }

  /** A word followed by nothing or by whitespace splits off as the first word. */
  lemma WordsOfWordThen(w: string, rest: string)
    requires IsWord(w)
    requires rest == "" || IsSpace(rest[0])
    ensures Words(w + rest) == [w] + Words(rest)
  {
    var s := w + rest;
    WordLenOfWord(w, rest);
    assert s[0] == w[0];
    assert s[..|w|] == w;
    assert s[|w|..] == rest;
  }

  /** A leading space is skipped. */
  lemma WordsOfSpace(rest: string)
    ensures Words(" " + rest) == Words(rest)
  {
    assert (" " + rest)[1..] == rest;
  }

  /** Splitting a single-space join gives back the words: `split` undoes `" ".join` on words. */
  lemma {:induction false} WordsOfJoin(ws: seq<string>)
    requires AllWords(ws)
    ensures Words(JoinWords(ws)) == ws
  {
    if |ws| == 1 {
      var w := ws[0];
      WordsOfWordThen(w, "");
      assert w + "" == w;
    } else if |ws| > 1 {
      var tail := ws[1..];
      AllWordsTail(ws);
      WordsOfJoin(tail);
      WordThenJoin(ws[0], JoinWords(tail), tail);
      assert JoinWords(ws) == ws[0] + (" " + JoinWords(tail));
      assert ws == [ws[0]] + tail;
    }
  }

  lemma AllWordsTail(ws: seq<string>)
    requires |ws| > 0 && AllWords(ws)
    ensures IsWord(ws[0]) && AllWords(ws[1..])
  {
    forall k | 0 <= k < |ws| - 1 ensures IsWord(ws[1..][k]) {
      assert ws[1..][k] == ws[k + 1];
    }
  }

  /** A word, a space, and a text that splits into `tail` split into the word and then `tail`. */
  lemma WordThenJoin(w: string, rest: string, tail: seq<string>)
    requires IsWord(w) && Words(rest) == tail
    ensures Words(w + (" " + rest)) == [w] + tail
  {
    WordsOfWordThen(w, " " + rest);
    WordsOfSpace(rest);
  }


}

=== FILE: uploads.dfy ===
/** `allowed_file`: the image-extension allow-list applied to uploaded file names. */
module Uploads {
  import opened Wrappers
  import opened Text

  const AllowedExtensions: set<string> := {"png", "jpg", "jpeg", "gif", "webp"}

  /** Index of the last "." in `s`, if any. */
  function LastDot(s: string): (r: Option<nat>)
    ensures r.Some? ==> r.value < |s| && s[r.value] == '.' && forall j :: r.value < j < |s| ==> s[j] != '.'
    ensures r.None? ==> forall j :: 0 <= j < |s| ==> s[j] != '.'
  {
    if |s| == 0 then None
    else if s[|s| - 1] == '.' then Some(|s| - 1)
    else LastDot(s[..|s| - 1])
  }

  /**
   * A file name is accepted when it holds a dot and the text after its last
   * dot, lower-cased, is one of the allowed extensions.
   */
  function AllowedFile(filename: string): (ok: bool)
    ensures ok ==> '.' in filename
    ensures ok ==> LastDot(filename).Some? && |filename| - LastDot(filename).value - 1 in {3, 4}
  {
    match LastDot(filename)
    case None => false
    case Some(i) => Lower(filename[i + 1..]) in AllowedExtensions
  }

  /** A name without a dot is never accepted. */
  lemma AllowedFileNeedsDot(filename: string)
    requires '.' !in filename
    ensures !AllowedFile(filename)
  {
  }

  /**
   * A name with a dot is accepted exactly when the part after its last dot is,
   * ignoring case, one of the allowed extensions. Together with
   * AllowedFileNeedsDot this decides every name.
   */
  lemma AllowedFileByExtension(base: string, ext: string)
    requires '.' !in ext
    ensures AllowedFile(base + "." + ext) <==> Lower(ext) in AllowedExtensions
  {
    var s := base + "." + ext;
    assert s[|base|] == '.';
    assert forall j :: |base| < j < |s| ==> s[j] == ext[j - |base| - 1];
    assert LastDot(s) == Some(|base|);
    assert s[|base| + 1..] == ext;
  }

  /** The extension test ignores case. */
  lemma AllowedFileUpperCase()
    ensures AllowedFile("foto.JPG")
  {
    AllowedFileByExtension("foto", "JPG");
    assert "foto" + "." + "JPG" == "foto.JPG";
    assert Lower("JPG") == "jpg";
  }

  /** Only the part after the last dot counts: an allowed extension earlier in the name does not help. */
  lemma AllowedFileLastDot()
    ensures !AllowedFile("foto.png.pdf")
  {
    AllowedFileByExtension("foto.png", "pdf");
    assert "foto.png" + "." + "pdf" == "foto.png.pdf";
    assert Lower("pdf") == "pdf";
  }

  /** Earlier dots do not matter when the last extension is allowed. */
  lemma AllowedFileManyDots()
    ensures AllowedFile("scan.v2.webp")
  {
    AllowedFileByExtension("scan.v2", "webp");
    assert "scan.v2" + "." + "webp" == "scan.v2.webp";
    assert Lower("webp") == "webp";
  }

}

=== FILE: wrappers.dfy ===
/** Nullable values: a SQL NULL, a missing form field or Python's `None`. */
module Wrappers {

  datatype Option<+T> = None | Some(value: T) {

    /** The value, or `default` when absent: Python's `x or default` on a nullable column. */
    function GetOr(default: T): T {
      match this
      case Some(v) => v
      case None => default
    }
  }
}
